=== FILE: README.md ===
# Form validator: rule evaluation and message resolution

This project models the core of a small client-side form validator. It covers two revisions of the library:

- `assets/formValidator.js`, module `FormValidatorCamel`;
- `assets/form_validator.js`, module `FormValidatorSnake`.

A validator is built from a rule table and a table of custom messages. The rule table maps a field name to an object such as `{required: true, min: 8}`. The validator does four things:

- it builds a per-field, per-rule message table (`exchangeMessages`);
- it checks one field against its rules (`check`), after dropping the rules whose value is `false` (`normalizeRules`);
- it checks every field of the form and records form validity (`validate`);
- it reports the recorded errors (`errorsMessages` / `getErrorsMessages`).

The message for a rule comes from the field's custom message, then the default for the rule, then the generic fallback.

Both revisions share most of their logic. That shared part lives in `Engine`, `Rules` and `Messages`, parametrised by a `Revision` (`Camel` or `Snake`). The places where the revisions differ are explicit:

- the `required` predicate;
- the scope `equalTo` searches;
- whether `{0}` is substituted when the message table is built (Camel) or only in the displayed text (Snake);
- whether `check` resets a field's error list (Camel) or only appends to it (Snake);
- whether `validate` returns the verdict;
- the shape of the error report.

The JavaScript semantics the code relies on are written out rather than assumed:

- the truthiness of rule parameters;
- `String(p)` and the number conversion behind `value.length >= param`;
- string length in UTF-16 code units;
- `String.prototype.replace` with a string pattern: first occurrence only, `$`-patterns in the replacement, and a function replacement called through an oracle;
- the `for…in` enumeration order of an object's own keys: array-index keys first in ascending order, then the other keys in insertion order;
- property assignment and `delete`;
- exceptions, modelled as `Throw`. State changes made before an exception persist.

The host is a parameter (`Host.Env`). It supplies:

- `document.querySelector` / `form.querySelector` results;
- the results of user-supplied predicates: function-valued `required` parameters and `addMethod` methods;
- the results of function-valued replacement arguments.

A form field is a record `Field(name, value, control)`. The control kind stands in for the DOM element properties that the first revision's `required` inspects.

Module layout:

| file | module | contents |
|---|---|---|
| js_values.dfy | JsValues | parameters, truthiness, number and string conversion, UTF-16 length |
| js_strings.dfy | JsStrings | substring search and `replace` with `$`-pattern expansion |
| js_objects.dfy | JsObjects | objects as ordered key lists, property assignment, `delete`, `for…in` order |
| host.dfy | Host | fields and the host environment oracles |
| email_pattern.dfy | EmailPattern | the unanchored pattern `\S+@\S+\.\S+` |
| rules.dfy | Rules | `normalizeRules`, `optional`, `min`, `max`, `email`, `equalTo` |
| messages.dfy | Messages | `replaceMessageParams`, `exchangeMessages` |
| engine.dfy | Engine | `required`, the method registry, the rule loop of `check` |
| form_validator_camel.dfy | FormValidatorCamel | option merging, `init`, `check`, `validate`, `errorsMessages`, `addMethod` of the first revision |
| form_validator_snake.dfy | FormValidatorSnake | `init`, `check`, `validate`, `getErrorsMessages`, `addMethod` of the second revision |

## Model

| member | source | states |
|---|---|---|
| JsValues.DecimalDigitsRoundTrip | assets/formValidator.js:280-285 | the decimal text that a numeric parameter contributes to a message reads back as the same number |
| JsValues.JsLength | assets/formValidator.js:93 | `value.length` counts UTF-16 code units: at least one per character and at most two |
| JsValues.Trim | assets/formValidator.js:113 | the whitespace stripped before a string parameter is read as a number: the result is the piece of the string between a white-space prefix and a white-space suffix, with no white space left at either end, and a string without surrounding white space is kept |
| JsValues.NumeralParamAgreesWithNumber | assets/formValidator.js:112-118 | a bound given as the numeral string `"8"` converts to the same number as the bound `8` |
| JsValues.OrDefault | assets/formValidator.js:63 | `given \|\| fallback` on strings: the given string is kept exactly when it is truthy as a JavaScript value, and the fallback is used otherwise |
| JsStrings.IndexOf | assets/formValidator.js:284 | the search finds a position exactly when the pattern occurs, and that position is the first occurrence |
| JsStrings.Replace | assets/formValidator.js:284 | a message without the pattern is returned unchanged |
| JsStrings.ReplaceFirstPlaceholder | assets/formValidator.js:284 | only the first `{0}` is replaced, and a replacement without `$` is inserted literally |
| JsStrings.DollarQuoteExpandsToSuffix | assets/formValidator.js:284 | a `$'` inside the parameter text inserts the part of the message after `{0}`, as JavaScript's replace does |
| JsStrings.ExpandLiteral | assets/formValidator.js:284 | a replacement string without `$` expands to itself whatever was matched |
| JsObjects.Put | assets/formValidator.js:381 | assignment keeps an existing key's position, appends a new key, and leaves every other key's value alone |
| JsObjects.Delete | assets/formValidator.js:427 | `delete` removes exactly the named key and leaves every other key's value alone |
| JsObjects.RemoveAppendedKey | assets/formValidator.js:381-427 | an entry created at the end of the key order and then deleted leaves the key order as it was |
| JsObjects.Enumerate | assets/formValidator.js:319-325 | `for…in` visits every own key exactly once, array-index keys first in ascending order, then the other keys in their insertion order; with no index key it is the insertion order |
| JsObjects.EnumerationKeepsPlainOrder | assets/formValidator.js:319-325 | with the index keys left out, the enumeration lists the keys in the order they were inserted |
| JsObjects.PlainKeysOfAppend | assets/formValidator.js:319-325 | leaving out the index keys of two key lists joined is joining the two lists with their index keys left out |
| JsObjects.EnumerationIsPermutation | assets/formValidator.js:319-325 | index keys sorted by value followed by the other keys are a permutation of the keys, with the index keys ordered |
| JsObjects.InsertKeepsSorted | assets/formValidator.js:319-325 | inserting an index key into a list of index keys sorted by value keeps it sorted |
| EmailPattern.RegexCharacterisation | assets/formValidator.js:107 | the unanchored pattern matches exactly when some non-space run, `@`, non-space run, `.`, non-space run occurs in the value |
| EmailPattern.Test | assets/formValidator.js:107-109 | the scan answers true exactly when the value contains such a match |
| Rules.NormalizeRules | assets/formValidator.js:315-328 | exactly the rules whose parameter is `false` are removed, the others keep their parameter and their relative order; form_validator.js:274-287 is the same code |
| Rules.DeleteFalseKeys | assets/formValidator.js:319-325 | deleting while enumerating leaves the original key list minus the `false`-valued keys |
| Rules.NormalizeIdempotent | assets/formValidator.js:315-328 | a normalised rule set has no `false` rule, and normalising it again changes nothing |
| Rules.RemoveKeyIsWithout | assets/formValidator.js:323 | deleting one key removes exactly that key from the key order |
| Rules.WithoutTwice | assets/formValidator.js:319-325 | removing two sets of keys one after the other is removing their union |
| Rules.NormalizeKeepsRequired | assets/formValidator.js:133-141 | normalisation does not change whether a rule set declares `required: true` |
| Rules.Optional | assets/formValidator.js:133-141 | throws a TypeError exactly when the field has no rule entry; otherwise a field is optional exactly when it does not declare `required: true` and its value is empty |
| Rules.Min | assets/formValidator.js:112-114 | passes exactly when the field is optional or its length is at least the converted parameter; throws only for a field without rules |
| Rules.Max | assets/formValidator.js:116-118 | passes exactly when the field is optional or its length is at most the converted parameter; throws only for a field without rules |
| Rules.Email | assets/formValidator.js:104-110 | passes exactly when the field is optional or its value contains a match of the e-mail pattern |
| Rules.EqualTo | assets/formValidator.js:120-124 | an invalid selector throws a SyntaxError; otherwise passes exactly when the referenced field is optional or both values are equal and non-empty |
| Rules.EqualToEmpty | assets/formValidator.js:120-124 | an empty value never equals a required referenced field |
| Rules.EqualToSymmetric | assets/formValidator.js:120-124 | for two required fields that reference each other, `equalTo` gives the same verdict in both directions |
| Rules.MinMaxExact | assets/formValidator.js:112-118 | for a field that is not optional, `min: n` and `max: n` both pass exactly when its length is `n` |
| Rules.NumeralBoundsAgree | assets/formValidator.js:112-118 | `min` and `max` give the same verdict for the bound `"8"` as for `8` |
| Rules.NormalizeKeepsOptionality | assets/formValidator.js:385 | normalising one field's rules in place does not change which fields are optional |
| Messages.NoPlaceholderUnchanged | assets/formValidator.js:280-285 | a message without `{0}` comes back unchanged whatever the parameter |
| Messages.FillsFirstPlaceholder | assets/formValidator.js:280-285 | for parameter text without `$`, the first `{0}` is replaced by that text, and the rest of the message is kept |
| Messages.ListParamJoinedWithoutSeparator | assets/formValidator.js:280-285 | a list parameter is joined with the empty separator and, when the joined text has no `$`, inserted as it is |
| Messages.NumberParamFills | assets/formValidator.js:280-285 | a numeric parameter is inserted as its decimal digits |
| Messages.DefaultEntries | assets/formValidator.js:185-193 | every rule with a truthy parameter, and only those, gets the rule's default message or else the fallback, substituted in the first revision and raw in the second |
| Messages.CustomEntries | assets/formValidator.js:195-204 | every rule with a non-empty custom message gets that message; the first revision throws when the field has custom messages but no rules |
| Messages.BaseEntries | assets/formValidator.js:183-193 | a field's table before custom messages holds exactly its truthy-parameter rules, each with its default text |
| Messages.CustomEntriesCover | assets/formValidator.js:195-204 | after the custom loop, a field's table holds its default entries plus one entry per custom message, and custom text wins |
| Messages.CustomKeysEnumerated | assets/formValidator.js:200-203 | the custom loop visits exactly the rules that have a non-empty custom message |
| Messages.FieldMessages | assets/formValidator.js:177-205 | a field's table holds exactly the rules with a custom message or a truthy parameter; a custom message wins over the default, which wins over the fallback; substituted in the first revision, raw in the second |
| Messages.ExchangeMessages | assets/formValidator.js:169-209 | the table succeeds exactly when every field's entry does, and then has exactly one entry per field name, each equal to that field's messages |
| Messages.ExchangeInto | assets/formValidator.js:177-206 | filling the table field by field fails exactly when one field's entry fails |
| Messages.ExchangeIntoTable | assets/formValidator.js:177-206 | filling field by field gives every field name an entry equal to that name's messages, and keeps the entries already present for other names |
| Engine.Register | assets/formValidator.js:297 | after registration a truthy method is present under its name, a callable one as that user method; a falsy one is absent; other names are untouched |
| Engine.Required | assets/formValidator.js:74-102 | select controls pass when non-empty; radio/checkbox inputs fail; for text controls a boolean parameter means non-empty, a function parameter is answered by the host oracle, and a selector string throws (a SyntaxError for an invalid selector, a TypeError otherwise); any other parameter fails |
| Engine.Evaluate | assets/formValidator.js:393-395 | calling the registered method: a truthy non-function throws a TypeError, a user method is answered by the host oracle for the value, the field and the parameter, `email`/`min`/`max` throw only for a field without rules and pass an optional field, and `equalTo` throws a SyntaxError exactly for an invalid selector |
| Engine.Outcome | assets/formValidator.js:393-395 | a rule name without a registered method is skipped as passing; only a registered method can fail or throw |
| Engine.FailureMessage | assets/formValidator.js:397-400 | the message read for a failure exists exactly when the message table holds that field and rule, and is then the stored text; otherwise a TypeError |
| Engine.RunRules | assets/formValidator.js:387-407 | a rule loop records nothing and raises nothing exactly when every rule passes, and it records at most one message per rule |
| Engine.RunStep | assets/formValidator.js:393-406 | one rule of the loop adds at most one message and raises exactly when that rule's method or message lookup raises |
| Engine.RunCompletes | assets/formValidator.js:387-407 | the loop finishes without an exception exactly when every rule's evaluation and message lookup finishes |
| Engine.RunPushesFailures | assets/formValidator.js:387-407 | a loop that finishes records exactly the messages of the failing rules, one each, in rule order |
| Engine.RunPushesStoredMessages | assets/formValidator.js:397-402 | every recorded message is one of the field's stored messages |
| Engine.Failing | assets/formValidator.js:393-395 | a rule fails exactly when it has a registered method that returns false |
| Engine.MessagesOf | assets/formValidator.js:397-402 | one stored message is recorded per failing rule, in order |
| Engine.NormalizeEntry | assets/formValidator.js:385 | normalising a field's rules in place keeps the set of fields and which fields are optional |
| Engine.CheckedRules | assets/formValidator.js:383-385 | after a check the rule table has the same fields as before |
| Engine.RunRulesSameOptionality | assets/formValidator.js:387-407 | the same holds for a whole rule loop |
| Engine.FieldRunStable | assets/formValidator.js:385 | normalising any field's rules in place does not change what a later check of any field computes |
| Engine.CheckedRulesStable | assets/formValidator.js:383-385 | a check leaves every field's later verdict and error entry unchanged |
| Engine.RegisterTakesEffect | assets/formValidator.js:294-307 | after `addMethod(name, fn)`, a rule with that name runs `fn` on the field's value, the field and the rule's parameter |
| FormValidatorCamel.MergeOptions | assets/formValidator.js:61-71 | without options the built-in settings are used; with options each non-empty setting wins and an empty one falls back to the built-in; `equalTo` always keeps its built-in text; every setting ends up non-empty; options lacking a message object throw a TypeError |
| FormValidatorCamel.Init | assets/formValidator.js:566-589 | succeeds exactly when the options merge and, given validations, the message table can be built; without validations the form starts valid with an empty message table; with them it starts invalid with the exchanged table; errors start empty and only the built-in methods are registered |
| FormValidatorCamel.Check | assets/formValidator.js:376-432 | only the checked field's error entry and the rule table change; it throws exactly when the field has rules and its rule loop throws, with that loop's error; a field passes exactly when every rule passes and its entry is then deleted; a failing field's entry lists one message per failing rule; an exception leaves the messages recorded so far |
| FormValidatorCamel.Settle | assets/formValidator.js:410-428 | the call throws exactly when the run ended in an exception, keeping the partial list; a clean run deletes the field's error entry; a failing run stores the recorded list |
| FormValidatorCamel.ValidateFrom | assets/formValidator.js:446-457 | when the loop finishes, the stored validity is the value returned |
| FormValidatorCamel.Validate | assets/formValidator.js:439-462 | `validate` returns the stored validity; without validations a non-empty form throws a TypeError |
| FormValidatorCamel.CheckKeepsVerdicts | assets/formValidator.js:376-432 | checking one field does not change what a later check of any field computes |
| FormValidatorCamel.ValidateVerdict | assets/formValidator.js:439-462 | a `validate` that returns gives true exactly when every field passes, with no early exit |
| FormValidatorCamel.CheckKeepsRuns | assets/formValidator.js:383-385 | checking one field does not change the rule loop of any field with rules |
| FormValidatorCamel.NoRunThrowsCons | assets/formValidator.js:446-455 | no loop throws in a list of fields exactly when the first field's loop does not and no later one does |
| FormValidatorCamel.CheckKeepsThrows | assets/formValidator.js:376-432 | checking one field does not change whether any later field's rule loop throws |
| FormValidatorCamel.ValidateFinishes | assets/formValidator.js:439-462 | `validate` returns exactly when no field's rule loop throws, since `check` throws only out of that loop |
| FormValidatorCamel.ValidateReturnsVerdict | assets/formValidator.js:439-462 | when no rule loop throws, `validate` returns, and returns false exactly when some field fails |
| FormValidatorCamel.ValidateErrors | assets/formValidator.js:439-462 | after `validate`, each field's entry is the one computed by its own last check, and fields that were not checked keep their entry |
| FormValidatorCamel.LastWithNameTail | assets/formValidator.js:446-455 | the last field carrying a name stays the last one once the first field has been checked |
| FormValidatorCamel.LastMessagesOf | assets/formValidator.js:350-363 | one entry per field with errors, holding the last message of its list |
| FormValidatorCamel.ErrorsMessages | assets/formValidator.js:336-368 | with a non-empty field name the field's whole list is returned; otherwise one entry per key of the error map, the i-th holding the last message of the list under the i-th key in `for…in` order |
| FormValidatorCamel.ValidReportsNoErrors | assets/formValidator.js:336-368 | after a `validate` that returned true from a fresh state, the report is empty, whether or not field names repeat |
| FormValidatorCamel.InvalidReportsAnError | assets/formValidator.js:336-368 | with distinct field names, after a `validate` that returned false from a fresh state, the report holds at least one message |
| FormValidatorCamel.ReportShowsEveryList | assets/formValidator.js:350-363 | every field with a non-empty error list shows a message in the report |
| FormValidatorCamel.ValidateKeepsListsNonEmpty | assets/formValidator.js:376-432 | a `validate` that finishes never leaves an empty error list behind |
| FormValidatorCamel.LaterPassErases | assets/formValidator.js:376-455 | when two controls share a name and the later one passes, the name has no error entry after `validate`, although the earlier failure still makes `validate` return false |
| FormValidatorCamel.CheckKeys | assets/formValidator.js:381-427 | checking a field not yet in the error map adds its name at the end of the key order exactly when the check leaves an entry |
| FormValidatorCamel.ValidateKeys | assets/formValidator.js:439-462 | from a map holding none of the fields' names and with distinct names, `validate` appends the names of the failing fields to the key order, in field order |
| FormValidatorCamel.CheckKeepsFailing | assets/formValidator.js:376-432 | a check does not change which later fields fail nor the last message they leave |
| FormValidatorCamel.ReportMatches | assets/formValidator.js:350-363 | reading the failing names in field order through a map holding each field's entry gives the field-order list of last messages |
| FormValidatorCamel.ValidateReportsInFieldOrder | assets/formValidator.js:336-462 | with distinct field names that are not array indices, after a `validate` from a fresh state the report is the last message of every failing field, in field order |
| FormValidatorCamel.AddMethod | assets/formValidator.js:294-307 | registers the method and stores the message or else the fallback as the rule's default; it returns exactly when the message table can be rebuilt under the new defaults and then holds that table, throws a TypeError without validations and otherwise the rebuild's error; errors, validity and rules are untouched |
| FormValidatorCamel.AddMethodStoresMessage | assets/formValidator.js:294-307 | after `addMethod`, a field using the new rule without a custom message gets the given message with its `{0}` substituted |
| FormValidatorSnake.ExchangeNeverThrows | assets/form_validator.js:138-175 | building the message table never throws, because the custom loop never reads the rules |
| FormValidatorSnake.Exchange | assets/form_validator.js:138-175 | the table has one entry per field name, each the field's raw messages |
| FormValidatorSnake.Init | assets/form_validator.js:437-448 | throws a TypeError exactly when there are no validations; otherwise the form starts invalid with no errors, and every field name's table entry is that field's raw messages built from the default messages and the given rules and custom messages |
| FormValidatorSnake.InitStoresTemplates | assets/form_validator.js:155-159 | a rule without a custom message stores its default template raw, `{0}` included |
| FormValidatorSnake.Grow | assets/form_validator.js:318-321 | the list after pushing is the old list, or the empty list when there was none, followed by exactly the pushed messages; no list is created when nothing is pushed |
| FormValidatorSnake.Check | assets/form_validator.js:292-348 | the field's old list is kept and extended with one raw message per failing rule; it throws exactly when a rule's evaluation or message lookup throws; it passes exactly when every rule passes |
| FormValidatorSnake.Pushed | assets/form_validator.js:302-326 | the messages one check of a field appends |
| FormValidatorSnake.ValidateFrom | assets/form_validator.js:361-372 | an exception leaves the stored validity as it was |
| FormValidatorSnake.Validate | assets/form_validator.js:354-375 | `validate` returns nothing, and an exception leaves the stored validity as it was |
| FormValidatorSnake.CheckKeepsVerdicts | assets/form_validator.js:292-348 | checking one field does not change any field's later verdict |
| FormValidatorSnake.CheckKeepsRuns | assets/form_validator.js:292-348 | checking one field does not change what any later check appends |
| FormValidatorSnake.ValidateVerdict | assets/form_validator.js:354-375 | the stored validity is true exactly when every field passes, with no early exit |
| FormValidatorSnake.CheckExtends | assets/form_validator.js:318-321 | a check never removes a field's list or a message from it |
| FormValidatorSnake.ValidateKeepsOldErrors | assets/form_validator.js:354-375 | `validate` never removes a recorded error, even when it throws |
| FormValidatorSnake.ValidateErrors | assets/form_validator.js:354-375 | with distinct field names, after `validate` each field's list is its old list extended by the messages of its failing rules; lists of other names are untouched even when `validate` throws |
| FormValidatorSnake.FirstValidateReportsFailures | assets/form_validator.js:292-348 | with distinct field names, from a fresh state a field's list is absent when nothing failed, and otherwise holds the stored messages of its failing rules in order |
| FormValidatorSnake.ValidateCompletes | assets/form_validator.js:354-375 | when `validate` finishes, every field's rule loop finished without an exception |
| FormValidatorSnake.ValidateKeepsPushed | assets/form_validator.js:354-375 | `validate` does not change what a later check appends |
| FormValidatorSnake.ValidateTwiceRepeats | assets/form_validator.js:318-321 | with distinct field names, a second `validate` from a fresh state appends each field's messages again, so its list holds them twice |
| FormValidatorSnake.PushedForDistinct | assets/form_validator.js:318-321 | with distinct names, what is pushed under a field's name is what its own check pushes |
| FormValidatorSnake.GrowTwice | assets/form_validator.js:318-321 | pushing two batches one after the other is pushing their concatenation |
| FormValidatorSnake.CheckKeepsPushedFor | assets/form_validator.js:292-348 | a check does not change what the checks of any fields would push under any name |
| FormValidatorSnake.ValidateCollects | assets/form_validator.js:354-375 | after a `validate` that returns, every name's list is its old list followed by what each control of that name pushed, in field order; names may repeat, and controls sharing a name share one list |
| FormValidatorSnake.ValidateKeepsPushedFor | assets/form_validator.js:354-375 | `validate` does not change what the checks of any fields would push under any name |
| FormValidatorSnake.ValidateTwiceCollects | assets/form_validator.js:318-321 | after two `validate` calls that return, every name's list is its old list followed by its controls' messages twice over, with no assumption on the names or the earlier errors |
| FormValidatorSnake.GetErrorsMessages | assets/form_validator.js:288-291 | with a non-empty name the field's list is returned, or nothing when there is none; otherwise the whole error map, unchanged |
| FormValidatorSnake.AddMethod | assets/form_validator.js:254-267 | registers the method, stores the message or else the fallback as the rule's default, and rebuilds the message table so that each field name's entry is its raw messages under the new defaults; errors, validity and rules are untouched |
| FormValidatorSnake.AddMethodStoresMessage | assets/form_validator.js:254-267 | after `addMethod`, a field using the new rule without a custom message stores the given message raw |
| FormValidatorSnake.MinMessageShown | assets/form_validator.js:241-246 | the displayed `min` message for a bound `n` is the default template with `{0}` replaced by the digits of `n` |

## Left out

- DOM output: error classes, error spans, `removeFieldErrorMessage`, blur handlers, `onsubmit` and `form.submit()`. They only change the page. The displayed text itself is modelled by `Messages.ReplaceMessageParams`.
- `getFields` / `getFormFields`: the fields are an input sequence. Both revisions cache the list, and each call reads the field's current `value`, so a sequence of field records read at call time is the same thing.
- The form lookup in `init` (`document.querySelector(form)`) and `console.log("Nothing to validate.")`: host I/O.
- Keys named like `Object.prototype` members (`constructor`, `toString`, …) as rule, field or message names. Such keys would read inherited values; the model treats objects as holding only their own keys.
- Non-index keys of a NodeList enumerated by `for…in` in `exchangeMessages` (`length`, `item`, …): the fields are enumerated by position.
- Fractional, negative, infinite, hexadecimal and exponent numbers as `min`/`max` parameters: numeric parameters are natural numbers, and strings convert only from optional-signed decimal digits.
- Validations objects that lack `rules` or `messages` entirely: the model takes a rule table and a custom-message table, possibly empty.
- Fields without a parent element and callable objects with their own `call` property: host objects outside the validator's contract.
- Characters outside the Basic Multilingual Plane in `\S`: the e-mail pattern treats each `char` as one unit.
- FormValidatorCamel.Validate: states the verdict through `FormValidatorCamel.ValidateVerdict` rather than in its own contract.
- FormValidatorSnake.ValidateFrom: likewise, the verdict is stated by `FormValidatorSnake.ValidateVerdict` and the errors by `FormValidatorSnake.ValidateErrors`.
- Engine.Evaluate: methods registered with `addMethod` are host oracles (`Host.Env.callMethod`), total and free of side effects. A method that throws, which would end `check` and `validate` with that exception, and a method that changes the validator (by calling `addMethod`, say) are not modelled.
- Engine.Required: a function-valued `required` parameter is the host oracle `Host.Env.callRequired`, total and free of side effects; a throw from it or a change it makes to the validator is not modelled. The same holds for function replacements in `Messages.ReplaceMessageParams`, answered by `Host.Env.callReplacer`.
- Messages.ReplaceMessageParams: has no contract of its own. Its behaviour is stated by the `Messages` lemmas about it.
- JsValues.ToJsString: numbers are unbounded naturals written as plain decimal digits. JavaScript switches `String(n)` to exponent form from 10^21 on and stores integers above 2^53 inexactly, so `JsValues.DecimalDigitsRoundTrip` and `Messages.NumberParamFills` describe the text of bounds below those limits only.

Two behaviours of the second revision are easy to miss:

- The second revision records the raw template, `{0}` included, in the error list. Only the displayed text is substituted.
- The second revision never clears an error list. A form can therefore be valid while the error map still holds messages from an earlier `validate`.

=== FILE: email_pattern.dfy ===
/**
 * The e-mail check of both revisions: `/\S+@\S+\.\S+/.test(value)`. The
 * expression is not anchored, so it accepts any value that contains such a
 * run somewhere. Astral characters are two non-space UTF-16 code units in
 * JavaScript and one non-space character here, which the pattern cannot tell
 * apart.
 */
module EmailPattern {
  import opened JsValues

  /** `s[lo..hi]` is a non-empty run of non-space characters. */
  predicate NonSpaceRun(s: string, lo: int, hi: int)
  {
    0 <= lo < hi <= |s| && forall k | lo <= k < hi :: !IsJsSpace(s[k])
  }

  /** `s[i..j]` is a run, `@` at `a`, a run, `.` at `d`, a run. */
  predicate MatchAt(s: string, i: int, a: int, d: int, j: int)
  {
    NonSpaceRun(s, i, a) && NonSpaceRun(s, a + 1, d) && NonSpaceRun(s, d + 1, j) && s[a] == '@' && s[d] == '.'
  }

  /** Literal reading of the unanchored expression: some substring of `s` matches it. */
  ghost predicate RegexMatches(s: string)
  {
    exists i, a, d, j :: MatchAt(s, i, a, d, j)
  }

  /** `@` at `a` and `.` at `d` with a non-space neighbour outside each and only non-space between. */
  predicate Witness(s: string, a: int, d: int)
  {
    && 0 < a && a + 1 < d && d + 1 < |s|
    && s[a] == '@' && s[d] == '.'
    && !IsJsSpace(s[a - 1]) && NonSpaceRun(s, a + 1, d) && !IsJsSpace(s[d + 1])
  }

  /** The characterisation the validator uses for the expression. */
  predicate LooksLikeEmail(s: string)
  {
    exists a, d | 0 <= a < |s| && 0 <= d < |s| :: Witness(s, a, d)
  }

  /** The shortest runs suffice, so the expression matches exactly when a witness exists. */
  lemma RegexCharacterisation(s: string)
    ensures RegexMatches(s) <==> LooksLikeEmail(s)
  {
    if RegexMatches(s) {
      var i, a, d, j :| MatchAt(s, i, a, d, j);
      assert Witness(s, a, d);
    }
    if LooksLikeEmail(s) {
      var a, d :| 0 <= a < |s| && 0 <= d < |s| && Witness(s, a, d);
      assert MatchAt(s, a - 1, a, d, d + 2);
    }
  }

  /** `reg.test(value)`: a left-to-right search for an `@` followed by a well-placed `.`. */
  method Test(s: string) returns (found: bool)
    ensures found <==> LooksLikeEmail(s)
  {
    found := false;
    var a := 1;
    while a < |s| && !found
      invariant 1 <= a
      invariant found ==> LooksLikeEmail(s)
      invariant !found ==> forall a', d' | 0 <= a' < a && 0 <= d' < |s| :: !Witness(s, a', d')
      decreases |s| - a, if found then 0 else 1
    {
      if s[a] == '@' && !IsJsSpace(s[a - 1]) {
        var d := a + 1;
        while d + 1 < |s| && !IsJsSpace(s[d]) && !found
          invariant a + 1 <= d <= |s|
          invariant forall k | a + 1 <= k < d :: !IsJsSpace(s[k])
          invariant found ==> Witness(s, a, d)
          invariant !found ==> forall d' | 0 <= d' < d :: !Witness(s, a, d')
          decreases |s| - d, if found then 0 else 1
        {
          if s[d] == '.' && a + 1 < d && !IsJsSpace(s[d + 1]) {
            found := true;
          } else {
            d := d + 1;
          }
        }
        if !found {
          forall d' | 0 <= d' < |s|
            ensures !Witness(s, a, d')
          {
            if d' > d && d' + 1 < |s| {
              assert !NonSpaceRun(s, a + 1, d') by {
                assert a + 1 <= d < d' && IsJsSpace(s[d]);
              }
            }
          }
        }
      }
      if !found {
        a := a + 1;
      }
    }
  }
}

=== FILE: engine.dfy ===
/**
 * The rule loop of `check`, shared by both revisions: after normalisation,
 * each rule of the field that names a registered method is evaluated, and
 * each failure looks up the stored message and records it. The revisions
 * differ inside the loop only in `required` and in where `equalTo` looks for
 * the other element.
 */
module Engine {
  import opened JsValues
  import opened JsObjects
  import opened Host
  import opened EmailPattern
  import opened Rules
  import opened Messages

  /** An entry of `_validations`. */
  datatype Method =
    | RequiredMethod
    | EmailMethod
    | MinMethod
    | MaxMethod
    | EqualToMethod
      /** A function registered with `addMethod`, identified by its source. */
    | UserMethod(source: string)
      /** A truthy value that is not a function: calling it throws a TypeError. */
    | NotCallable

  /** `_validations`: the methods a rule name can refer to; absent names are skipped. */
  type Methods = map<string, Method>

  /** The five built-in methods both revisions start with. */
  const Builtins: Methods :=
    map["required" := RequiredMethod, "email" := EmailMethod, "min" := MinMethod,
        "max" := MaxMethod, "equalTo" := EqualToMethod]

  /**
   * `validator._validations[name] = method`: a function becomes callable under
   * that name, a falsy value makes `check` skip the name, any other value
   * throws when a rule uses it.
   */
  function Register(methods: Methods, name: string, fn: Param): (r: Methods)
    ensures Truthy(fn) <==> name in r
    ensures fn.Func? ==> r[name] == UserMethod(fn.source)
    ensures Truthy(fn) && !fn.Func? ==> r[name] == NotCallable
    ensures forall n | n != name :: (n in r <==> n in methods) && (n in r ==> r[n] == methods[n])
  {
    if !Truthy(fn) then methods - {name}
    else if fn.Func? then methods[name := UserMethod(fn.source)]
    else methods[name := NotCallable]
  }

  /**
   * `required(value, element, param)`. formValidator.js first looks at the
   * element: a `<select>` needs a value, a radio button or checkbox reads the
   * element's `length`, which inputs do not have, and fails. Then both
   * revisions switch on `typeof param`: a boolean asks for a non-empty value, a
   * function decides, and any other type falls out of the switch and yields
   * `undefined`. A string parameter is a selector in formValidator.js, and the
   * call that follows the query invokes a non-function.
   */
  function Required(rev: Revision, env: Env, f: Field, p: Param): (r: Result<bool>)
    ensures (rev == Snake || f.control == TextControl) && p.Bool? ==> r == Ok(f.value != "")
    ensures (rev == Snake || f.control == TextControl) && p.Func? ==> r == Ok(env.callRequired(p.source, f, f.value))
    ensures rev == Snake && !p.Bool? && !p.Func? ==> r == Ok(false)
    ensures rev == Camel && f.control == SelectControl ==> r == Ok(f.value != "")
    ensures rev == Camel && f.control == ChoiceControl ==> r == Ok(false)
    ensures r.Throw? <==> rev == Camel && f.control == TextControl && p.Str?
    ensures r.Throw? ==> (r.error == SyntaxError <==> env.select(InDocument, p.s) == InvalidSelector)
    ensures (rev == Snake || f.control == TextControl) && !p.Bool? && !p.Func? && !p.Str? ==> r == Ok(false)
  {
    if rev == Camel && !f.control.TextControl? then
      match f.control
      case SelectControl => Ok(JsLength(f.value) > 0)
      case _ => Ok(false)
    else
      match p
      case Str(selector) =>
        if rev != Camel then Ok(false)
        else if env.select(InDocument, selector) == InvalidSelector then Throw(SyntaxError) else Throw(TypeError)
      case Bool(_) => Ok(JsLength(f.value) > 0)
      case Func(source) => Ok(env.callRequired(source, f, f.value))
      case _ => Ok(false)
  }

  /** Where `equalTo` looks up its selector: the form in formValidator.js, the whole document in form_validator.js. */
  function EqualToScope(rev: Revision): Scope
  {
    if rev == Camel then InForm else InDocument
  }

  /**
   * `_validations[method].call(this, field.value, field, param)`: a truthy
   * value that is not a function throws a TypeError, a user method is
   * answered by the host oracle, and the built-in predicates throw only where
   * `optional` or the selector lookup does.
   */
  function Evaluate(rev: Revision, env: Env, rules: RuleTable, m: Method, f: Field, p: Param): (r: Result<bool>)
    ensures m == NotCallable ==> r == Throw(TypeError)
    ensures m.UserMethod? ==> r == Ok(env.callMethod(m.source, f.value, f, p))
    ensures (m == EmailMethod || m == MinMethod || m == MaxMethod) ==> (r.Ok? <==> f.name in rules)
    ensures (m == EmailMethod || m == MinMethod || m == MaxMethod) && Optional(rules, f) == Ok(true) ==> r == Ok(true)
    ensures m == EqualToMethod ==> (r == Throw(SyntaxError) <==> env.select(EqualToScope(rev), ToJsString(p)) == InvalidSelector)
  {
    match m
    case RequiredMethod => Required(rev, env, f, p)
    case EmailMethod => Email(rules, f)
    case MinMethod => Min(rules, f, p)
    case MaxMethod => Max(rules, f, p)
    case EqualToMethod => EqualTo(env, EqualToScope(rev), rules, f, p)
    case UserMethod(source) => Ok(env.callMethod(source, f.value, f, p))
    case NotCallable => Throw(TypeError)
  }

  /** The state the rule loop reads: rule table, registered methods, stored messages. */
  datatype Tables = Tables(rules: RuleTable, methods: Methods, messages: MessageTable)

  /** What the loop over one field's rules leaves behind: the messages pushed and the exception that ended it, if any. */
  datatype Run = Run(pushed: seq<string>, error: Option<JsError>)

  /**
   * The outcome of one rule, before its message is looked up: a rule name
   * with no registered method is skipped as if it passed.
   */
  function Outcome(rev: Revision, env: Env, t: Tables, f: Field, rs: RuleSet, rule: string): (r: Result<bool>)
    ensures rule !in t.methods ==> r == Ok(true)
    ensures r.Throw? || r == Ok(false) ==> rule in t.methods
    ensures rule in t.methods && t.methods[rule] == NotCallable ==> r == Throw(TypeError)
    ensures rule in t.methods && t.methods[rule].UserMethod? ==>
      r == Ok(env.callMethod(t.methods[rule].source, f.value, f, ParamOf(rs, rule)))
  {
    if rule in t.methods then Evaluate(rev, env, t.rules, t.methods[rule], f, ParamOf(rs, rule))
    else Ok(true)
  }

  /**
   * `_messages[fieldName][method]` handed to `addFieldErrorMessage`: a field
   * missing from the table or a rule without a stored message ends in a
   * TypeError (`undefined[method]`, `undefined.replace`).
   */
  function FailureMessage(messages: MessageTable, name: string, rule: string): (r: Result<string>)
    ensures r.Ok? <==> name in messages && rule in messages[name]
    ensures r.Ok? ==> r.value == messages[name][rule]
  {
    if name !in messages then Throw(TypeError)
    else if rule !in messages[name] then Throw(TypeError)
    else Ok(messages[name][rule])
  }

  /**
   * The loop of `check` over the rule names `ks`: a rule without a registered
   * method is skipped, a passing rule adds nothing, a failing rule pushes its
   * stored message. An exception stops the loop with what was pushed so far.
   */
  function RunRules(rev: Revision, env: Env, t: Tables, f: Field, rs: RuleSet, ks: seq<string>): (run: Run)
    ensures |run.pushed| <= |ks|
    ensures run == Run([], None) <==> forall i | 0 <= i < |ks| :: Outcome(rev, env, t, f, rs, ks[i]) == Ok(true)
  {
    if |ks| == 0 then Run([], None)
    else
      var rest := RunRules(rev, env, t, f, rs, ks[1..]);
      assert forall i | 0 <= i < |ks[1..]| :: ks[1..][i] == ks[i + 1];
      RunStep(rev, env, t, f, rs, ks, rest)
  }

  /** One turn of the loop: rule `ks[0]` in front of the run of the remaining rules. */
  function RunStep(rev: Revision, env: Env, t: Tables, f: Field, rs: RuleSet, ks: seq<string>, rest: Run): (run: Run)
    requires |ks| > 0
    ensures run.error.None? <==> Completes(rev, env, t, f, rs, ks[0]) && rest.error.None?
    ensures run == Run([], None) <==> Outcome(rev, env, t, f, rs, ks[0]) == Ok(true) && rest == Run([], None)
    ensures |run.pushed| <= 1 + |rest.pushed|
  {
    match Outcome(rev, env, t, f, rs, ks[0])
    case Throw(e) => Run([], Some(e))
    case Ok(true) => rest
    case Ok(false) =>
      match FailureMessage(t.messages, f.name, ks[0])
      case Throw(e) => Run([], Some(e))
      case Ok(msg) => Run([msg] + rest.pushed, rest.error)
  }

  /** The rule neither throws nor fails without a stored message. */
  predicate Completes(rev: Revision, env: Env, t: Tables, f: Field, rs: RuleSet, rule: string)
  {
    match Outcome(rev, env, t, f, rs, rule)
    case Throw(_) => false
    case Ok(b) => b || FailureMessage(t.messages, f.name, rule).Ok?
  }

  /** The rule names of `ks` whose registered method returns false, in order. */
  function Failing(rev: Revision, env: Env, t: Tables, f: Field, rs: RuleSet, ks: seq<string>): (r: seq<string>)
    ensures forall x :: x in r <==> x in ks && Outcome(rev, env, t, f, rs, x) == Ok(false)
  {
    if |ks| == 0 then []
    else (if Outcome(rev, env, t, f, rs, ks[0]) == Ok(false) then [ks[0]] else []) + Failing(rev, env, t, f, rs, ks[1..])
  }

  /** The stored message of each rule in `rules`. */
  function MessagesOf(messages: MessageTable, name: string, rules: seq<string>): (r: seq<string>)
    ensures |r| == |rules|
    ensures forall j | 0 <= j < |rules| && name in messages && rules[j] in messages[name] :: r[j] == messages[name][rules[j]]
  {
    if |rules| == 0 then []
    else [if name in messages && rules[0] in messages[name] then messages[name][rules[0]] else ""] + MessagesOf(messages, name, rules[1..])
  }

  /** The loop ends without an exception exactly when every rule completes. */
  lemma {:induction false} RunCompletes(rev: Revision, env: Env, t: Tables, f: Field, rs: RuleSet, ks: seq<string>)
    ensures RunRules(rev, env, t, f, rs, ks).error.None? <==> forall i | 0 <= i < |ks| :: Completes(rev, env, t, f, rs, ks[i])
  {
    if |ks| > 0 {
      RunCompletes(rev, env, t, f, rs, ks[1..]);
      assert forall i | 0 <= i < |ks[1..]| :: ks[1..][i] == ks[i + 1];
    }
  }

  /** A loop that completes pushes exactly the stored message of each failing rule, in rule order. */
  lemma {:induction false} RunPushesFailures(rev: Revision, env: Env, t: Tables, f: Field, rs: RuleSet, ks: seq<string>)
    requires RunRules(rev, env, t, f, rs, ks).error.None?
    ensures RunRules(rev, env, t, f, rs, ks).pushed == MessagesOf(t.messages, f.name, Failing(rev, env, t, f, rs, ks))
  {
    if |ks| > 0 {
      var rest := RunRules(rev, env, t, f, rs, ks[1..]);
      assert RunRules(rev, env, t, f, rs, ks) == RunStep(rev, env, t, f, rs, ks, rest);
      RunPushesFailures(rev, env, t, f, rs, ks[1..]);
      var fl := Failing(rev, env, t, f, rs, ks[1..]);
      if Outcome(rev, env, t, f, rs, ks[0]) == Ok(false) {
        var all := [ks[0]] + fl;
        assert Failing(rev, env, t, f, rs, ks) == all;
        assert all[1..] == fl;
      } else {
        assert Failing(rev, env, t, f, rs, ks) == [] + fl == fl;
      }
    }
  }

  /** Every pushed message is one of the field's stored messages. */
  lemma {:induction false} RunPushesStoredMessages(rev: Revision, env: Env, t: Tables, f: Field, rs: RuleSet, ks: seq<string>)
    ensures forall m | m in RunRules(rev, env, t, f, rs, ks).pushed :: f.name in t.messages && m in t.messages[f.name].Values
  {
    if |ks| > 0 {
      var rest := RunRules(rev, env, t, f, rs, ks[1..]);
      RunPushesStoredMessages(rev, env, t, f, rs, ks[1..]);
      assert RunRules(rev, env, t, f, rs, ks) == RunStep(rev, env, t, f, rs, ks, rest);
    }
  }

  /** The table after `normalizeRules(validations.rules[field.name])`, which rewrites the entry in place. */
  function NormalizeEntry(rules: RuleTable, name: string): (r: RuleTable)
    requires name in rules
    ensures r.Keys == rules.Keys
    ensures SameOptionality(rules, r)
  {
    NormalizeKeepsOptionality(rules, name);
    rules[name := NormalizeRules(rules[name])]
  }

  /**
   * Everything `check` does with a field that has rules: normalise them, then
   * run the loop over them in enumeration order against the updated table.
   */
  function FieldRun(rev: Revision, env: Env, t: Tables, f: Field): Run
    requires f.name in t.rules
  {
    var rs := NormalizeRules(t.rules[f.name]);
    RunRules(rev, env, t.(rules := NormalizeEntry(t.rules, f.name)), f, rs, Enumerate(rs))
  }

  /** A field passes `check` when it has no rules or when its run pushes nothing and throws nothing. */
  predicate FieldPasses(rev: Revision, env: Env, t: Tables, f: Field)
  {
    f.name !in t.rules || FieldRun(rev, env, t, f) == Run([], None)
  }

  /** The rule table after `check(field)`: the field's entry normalised if it has one. */
  function CheckedRules(rules: RuleTable, name: string): (r: RuleTable)
    ensures r.Keys == rules.Keys
  {
    if name in rules then NormalizeEntry(rules, name) else rules
  }

  /** What `check` computes for a field: nothing when it passes, otherwise the messages its run pushed. */
  function ErrorEntry(rev: Revision, env: Env, t: Tables, f: Field): Option<seq<string>>
  {
    if f.name !in t.rules || FieldRun(rev, env, t, f) == Run([], None) then None
    else Some(FieldRun(rev, env, t, f).pushed)
  }

  /** The rule predicates see the table only through `optional`. */
  lemma EvaluateSameOptionality(rev: Revision, env: Env, a: RuleTable, b: RuleTable, m: Method, f: Field, p: Param)
    requires SameOptionality(a, b)
    ensures Evaluate(rev, env, a, m, f, p) == Evaluate(rev, env, b, m, f, p)
  {
  }

  lemma OutcomeSameOptionality(rev: Revision, env: Env, t: Tables, u: Tables, f: Field, rs: RuleSet, rule: string)
    requires SameOptionality(t.rules, u.rules) && t.methods == u.methods
    ensures Outcome(rev, env, t, f, rs, rule) == Outcome(rev, env, u, f, rs, rule)
  {
    if rule in t.methods {
      EvaluateSameOptionality(rev, env, t.rules, u.rules, t.methods[rule], f, ParamOf(rs, rule));
    }
  }

  lemma {:induction false} RunRulesSameOptionality(rev: Revision, env: Env, t: Tables, u: Tables, f: Field, rs: RuleSet, ks: seq<string>)
    requires SameOptionality(t.rules, u.rules) && t.methods == u.methods && t.messages == u.messages
    ensures RunRules(rev, env, t, f, rs, ks) == RunRules(rev, env, u, f, rs, ks)
  {
    if |ks| > 0 {
      RunRulesSameOptionality(rev, env, t, u, f, rs, ks[1..]);
      OutcomeSameOptionality(rev, env, t, u, f, rs, ks[0]);
      var rest := RunRules(rev, env, t, f, rs, ks[1..]);
      assert RunStep(rev, env, t, f, rs, ks, rest) == RunStep(rev, env, u, f, rs, ks, rest);
    }
  }

  /**
   * Checking a field again after its own or another entry has been normalised
   * gives the same run: normalisation is idempotent and never changes what
   * `optional` sees.
   */
  lemma FieldRunStable(rev: Revision, env: Env, t: Tables, name: string, f: Field)
    requires name in t.rules && f.name in t.rules
    ensures FieldRun(rev, env, t.(rules := NormalizeEntry(t.rules, name)), f) == FieldRun(rev, env, t, f)
  {
    var u := t.(rules := NormalizeEntry(t.rules, name));
    NormalizeIdempotent(t.rules[name]);
    assert NormalizeRules(u.rules[f.name]) == NormalizeRules(t.rules[f.name]);
    var rs := NormalizeRules(t.rules[f.name]);
    var t' := t.(rules := NormalizeEntry(t.rules, f.name));
    var u' := u.(rules := NormalizeEntry(u.rules, f.name));
    assert SameOptionality(t'.rules, u'.rules) by {
      forall n | n in t'.rules
        ensures DeclaresRequired(t'.rules[n]) == DeclaresRequired(u'.rules[n])
      {
        NormalizeKeepsRequired(t.rules[n]);
        NormalizeKeepsRequired(u.rules[n]);
      }
    }
    RunRulesSameOptionality(rev, env, t', u', f, rs, Enumerate(rs));
  }

  /** Checking one field never changes the verdict or the errors of any field checked later. */
  lemma CheckedRulesStable(rev: Revision, env: Env, t: Tables, name: string, g: Field)
    ensures FieldPasses(rev, env, t.(rules := CheckedRules(t.rules, name)), g) == FieldPasses(rev, env, t, g)
    ensures ErrorEntry(rev, env, t.(rules := CheckedRules(t.rules, name)), g) == ErrorEntry(rev, env, t, g)
  {
    if name in t.rules && g.name in t.rules {
      FieldRunStable(rev, env, t, name, g);
    }
  }

  /** The second constructor argument: `rules`, and the custom messages (`messages || {}`). */
  datatype Validations = Validations(rules: RuleTable, custom: CustomMessages)

  /** `_errors` before any check. */
  const NoErrors: Obj<seq<string>> := Object([], map[])

  /** Every error list in the map holds at least one message. */
  predicate NoEmptyLists(errors: Obj<seq<string>>)
  {
    forall k | k in errors.keys :: |errors.values[k]| > 0
  }

  /** No later field has the name of `fields[i]`. */
  predicate LastWithName(fields: seq<Field>, i: int)
    requires 0 <= i < |fields|
  {
    forall j | i < j < |fields| :: fields[j].name != fields[i].name
  }

  /** The first field is the last of its name exactly when no later field carries that name. */
  lemma LastWithNameFirst(fields: seq<Field>)
    requires |fields| > 0
    ensures LastWithName(fields, 0) <==> !NamedIn(fields[1..], fields[0].name)
  {
    var rest := fields[1..];
    if NamedIn(rest, fields[0].name) {
      var j :| 0 <= j < |rest| && rest[j].name == fields[0].name;
      assert fields[j + 1] == rest[j];
    }
    if !NamedIn(rest, fields[0].name) {
      forall j | 0 < j < |fields|
        ensures fields[j].name != fields[0].name
      {
        assert rest[j - 1] == fields[j];
      }
    }
  }

  /** Field names do not repeat. */
  predicate DistinctNames(fields: seq<Field>)
  {
    forall i, j | 0 <= i < j < |fields| :: fields[i].name != fields[j].name
  }

  /** Distinct names stay distinct in the tail, and the first field is the last of its name. */
  lemma DistinctTail(fields: seq<Field>)
    requires |fields| > 0 && DistinctNames(fields)
    ensures DistinctNames(fields[1..]) && LastWithName(fields, 0)
  {
    var rest := fields[1..];
    forall a, b | 0 <= a < b < |rest|
      ensures rest[a].name != rest[b].name
    {
      assert rest[a] == fields[a + 1] && rest[b] == fields[b + 1];
    }
  }

  /** Every field in `fields` passes its check. */
  predicate AllPass(rev: Revision, env: Env, t: Tables, fields: seq<Field>)
  {
    forall i | 0 <= i < |fields| :: FieldPasses(rev, env, t, fields[i])
  }

  lemma AllPassCons(rev: Revision, env: Env, t: Tables, fields: seq<Field>)
    requires |fields| > 0
    ensures AllPass(rev, env, t, fields) == (FieldPasses(rev, env, t, fields[0]) && AllPass(rev, env, t, fields[1..]))
  {
    ForallFirst(fields, g => FieldPasses(rev, env, t, g));
  }

  /** A property holds of every element exactly when it holds of the first and of every element of the rest. */
  lemma ForallFirst<T>(s: seq<T>, p: T -> bool)
    requires |s| > 0
    ensures (forall i | 0 <= i < |s| :: p(s[i])) <==> p(s[0]) && forall i | 0 <= i < |s[1..]| :: p(s[1..][i])
  {
    assert forall i | 0 < i < |s| :: s[i] == s[1..][i - 1];
  }

  /** Once a function is registered under a rule name, that rule calls it with the value, the element and the parameter. */
  lemma RegisterTakesEffect(rev: Revision, env: Env, t: Tables, f: Field, rs: RuleSet, name: string, source: string)
    ensures Outcome(rev, env, t.(methods := Register(t.methods, name, Func(source))), f, rs, name)
      == Ok(env.callMethod(source, f.value, f, ParamOf(rs, name)))
  {
    assert Register(t.methods, name, Func(source))[name] == UserMethod(source);
  }
}

=== FILE: form_validator_camel.dfy ===
/**
 * assets/formValidator.js: the validator with options. Messages are filled in
 * when the table is built, `check` starts every field with an empty error
 * list and deletes the list of a field that passes, `validate` returns the
 * verdict, and `errorsMessages` reports either one field's list or the last
 * message of every field.
 */
module FormValidatorCamel {
  import opened JsValues
  import opened JsObjects
  import opened Host
  import opened Rules
  import opened Messages
  import opened Engine

  /** `options._defaultMessages`; "" stands for a falsy entry. */
  datatype DefaultMessageOptions = DefaultMessageOptions(required: string, email: string, min: string, max: string)

  /** The third constructor argument; "" stands for a falsy setting, `None` for a missing `_defaultMessages`. */
  datatype Options = Options(
    containerFieldErrorClass: string,
    messageErrorClass: string,
    defaultErrorMessage: string,
    defaultErrorListMessage: string,
    defaultMessages: Option<DefaultMessageOptions>)

  /** The settings the validator object is created with. */
  datatype Config = Config(
    containerFieldErrorClass: string,
    messageErrorClass: string,
    defaultErrorMessage: string,
    defaultErrorListMessage: string,
    defaultMessages: map<string, string>)

  const EqualToMessage: string := "This field is wrong."

  const DefaultConfig: Config := Config(
    "with-error",
    "error",
    "Fix this field.",
    "Please double check your data before continuing:",
    map["required" := "This field is required",
        "email" := "Fill this field with the format \"user@server.com\"",
        "min" := "Fill this field with minimun of {0} characters.",
        "max" := "Fill this field with maximun of {0} characters.",
        "equalTo" := EqualToMessage])

  /** Every setting of a configuration is a non-empty string. */
  predicate Filled(c: Config)
  {
    && c.containerFieldErrorClass != "" && c.messageErrorClass != ""
    && c.defaultErrorMessage != "" && c.defaultErrorListMessage != ""
    && (forall k | k in c.defaultMessages :: c.defaultMessages[k] != "")
  }

  /** `given || fallback` settled to `setting`: a given non-empty string wins, the empty one falls back. */
  predicate Settles(given: string, fallback: string, setting: string)
  {
    (given != "" ==> setting == given) && (given == "" ==> setting == fallback)
  }

  /**
   * The option merge of the object literal: each setting is the option when it
   * is truthy and the built-in default otherwise. The message for `equalTo` is
   * always the built-in one. Options without `_defaultMessages` make the
   * literal read a property of `undefined` and throw.
   */
  function MergeOptions(options: Option<Options>): (r: Result<Config>)
    ensures options.None? ==> r == Ok(DefaultConfig)
    ensures r.Throw? <==> options.Some? && options.value.defaultMessages.None?
    ensures r.Ok? ==> Filled(r.value)
    ensures r.Ok? ==> r.value.defaultMessages.Keys == DefaultConfig.defaultMessages.Keys
    ensures r.Ok? ==> r.value.defaultMessages["equalTo"] == EqualToMessage
    ensures r.Ok? && options.Some? ==>
      var o, d := options.value, options.value.defaultMessages.value;
      && Settles(o.containerFieldErrorClass, DefaultConfig.containerFieldErrorClass, r.value.containerFieldErrorClass)
      && Settles(o.messageErrorClass, DefaultConfig.messageErrorClass, r.value.messageErrorClass)
      && Settles(o.defaultErrorMessage, DefaultConfig.defaultErrorMessage, r.value.defaultErrorMessage)
      && Settles(o.defaultErrorListMessage, DefaultConfig.defaultErrorListMessage, r.value.defaultErrorListMessage)
      && Settles(d.required, DefaultConfig.defaultMessages["required"], r.value.defaultMessages["required"])
      && Settles(d.email, DefaultConfig.defaultMessages["email"], r.value.defaultMessages["email"])
      && Settles(d.min, DefaultConfig.defaultMessages["min"], r.value.defaultMessages["min"])
      && Settles(d.max, DefaultConfig.defaultMessages["max"], r.value.defaultMessages["max"])
  {
    match options
    case None => Ok(DefaultConfig)
    case Some(o) =>
      match o.defaultMessages
      case None => Throw(TypeError)
      case Some(m) =>
        var d := DefaultConfig;
        Ok(Config(
          OrDefault(o.containerFieldErrorClass, d.containerFieldErrorClass),
          OrDefault(o.messageErrorClass, d.messageErrorClass),
          OrDefault(o.defaultErrorMessage, d.defaultErrorMessage),
          OrDefault(o.defaultErrorListMessage, d.defaultErrorListMessage),
          map["required" := OrDefault(m.required, d.defaultMessages["required"]),
              "email" := OrDefault(m.email, d.defaultMessages["email"]),
              "min" := OrDefault(m.min, d.defaultMessages["min"]),
              "max" := OrDefault(m.max, d.defaultMessages["max"]),
              "equalTo" := EqualToMessage]))
  }

  /** The validator object: settings, validations (absent when falsy), `_validations`, `_messages`, `_errors`, `_valid`. */
  datatype State = State(
    config: Config,
    validations: Option<Validations>,
    methods: Methods,
    messages: MessageTable,
    errors: Obj<seq<string>>,
    valid: bool)

  /** The state after a call, and what the call returned or threw. */
  datatype Called<T> = Called(state: State, result: Result<T>)

  function TablesOf(st: State): Tables
    requires st.validations.Some?
  {
    Tables(st.validations.value.rules, st.methods, st.messages)
  }

  /**
   * Construction and `init()`: merge the options; without validations the
   * form is declared valid and nothing else happens, otherwise the message
   * table is built for the form's fields.
   */
  function Init(env: Env, options: Option<Options>, validations: Option<Validations>, fields: seq<Field>): (r: Result<State>)
    ensures r.Ok? <==> (MergeOptions(options).Ok? &&
      (validations.Some? ==> ExchangeMessages(Camel, env, MergeOptions(options).value.defaultMessages,
                                              MergeOptions(options).value.defaultErrorMessage,
                                              validations.value.rules, validations.value.custom, fields).Ok?))
    ensures r.Ok? ==> r.value.valid == validations.None? && r.value.errors == NoErrors && r.value.methods == Builtins
    ensures r.Ok? && validations.None? ==> r.value.messages == map[]
    ensures r.Ok? && validations.Some? ==>
      Ok(r.value.messages) == ExchangeMessages(Camel, env, r.value.config.defaultMessages, r.value.config.defaultErrorMessage,
                                               validations.value.rules, validations.value.custom, fields)
  {
    match MergeOptions(options)
    case Throw(e) => Throw(e)
    case Ok(c) =>
      match validations
      case None => Ok(State(c, None, Builtins, map[], NoErrors, true))
      case Some(v) =>
        match ExchangeMessages(Camel, env, c.defaultMessages, c.defaultErrorMessage, v.rules, v.custom, fields)
        case Throw(e) => Throw(e)
        case Ok(m) => Ok(State(c, validations, Builtins, m, NoErrors, false))
  }

  /**
   * `check(field)`: `_errors[name] = []` first, then the rule loop when the
   * field has rules. A field with a failure keeps the list of messages pushed;
   * a field without one loses its entry. An exception leaves the list as far
   * as it got, the rules normalised, and propagates.
   */
  function Check(env: Env, st: State, f: Field): (c: Called<bool>)
    ensures c.state == st.(errors := c.state.errors, validations := c.state.validations)
    ensures forall k | k != f.name :: Lookup(c.state.errors, k) == Lookup(st.errors, k)
    ensures st.validations.None? ==> c.result == Throw(TypeError) && Lookup(c.state.errors, f.name) == Some([])
    ensures st.validations.Some? ==>
      c.state.validations == Some(st.validations.value.(rules := CheckedRules(st.validations.value.rules, f.name)))
    ensures st.validations.Some? ==>
      && (c.result == Ok(true) <==> FieldPasses(Camel, env, TablesOf(st), f))
      && (c.result.Ok? ==> Lookup(c.state.errors, f.name) == ErrorEntry(Camel, env, TablesOf(st), f))
      && (c.result.Throw? ==> Lookup(c.state.errors, f.name) == Some(FieldRun(Camel, env, TablesOf(st), f).pushed))
    ensures st.validations.Some? ==>
      (c.result.Throw? <==> f.name in st.validations.value.rules && FieldRun(Camel, env, TablesOf(st), f).error.Some?)
    ensures st.validations.Some? && c.result.Throw? ==> Some(c.result.error) == FieldRun(Camel, env, TablesOf(st), f).error
    ensures c.result.Ok? && NoEmptyLists(st.errors) ==> NoEmptyLists(c.state.errors)
  {
    var errors := Put(st.errors, f.name, []);
    match st.validations
    case None => Called(st.(errors := errors), Throw(TypeError))
    case Some(v) =>
      var run := if f.name in v.rules then FieldRun(Camel, env, TablesOf(st), f) else Run([], None);
      var settled := Settle(st.errors, f.name, run);
      Called(st.(validations := Some(v.(rules := CheckedRules(v.rules, f.name))), errors := settled.0), settled.1)
  }

  /**
   * The end of `check` once the loop has run: a failure or an exception
   * leaves the pushed messages in the list that was reset to `[]`, and a
   * field with neither loses its entry.
   */
  function Settle(errors: Obj<seq<string>>, name: string, run: Run): (r: (Obj<seq<string>>, Result<bool>))
    ensures forall k | k != name :: Lookup(r.0, k) == Lookup(errors, k)
    ensures r.1.Throw? <==> run.error.Some?
    ensures r.1 == Ok(true) <==> run == Run([], None)
    ensures r.1.Ok? ==> Lookup(r.0, name) == if run == Run([], None) then None else Some(run.pushed)
    ensures r.1.Throw? ==> run.error == Some(r.1.error) && Lookup(r.0, name) == Some(run.pushed)
    ensures r.1.Ok? && NoEmptyLists(errors) ==> NoEmptyLists(r.0)
  {
    var reset := Put(errors, name, []);
    if run.error.Some? then (Put(reset, name, run.pushed), Throw(run.error.value))
    else if |run.pushed| > 0 then (Put(reset, name, run.pushed), Ok(false))
    else (Delete(reset, name), Ok(true))
  }

  /** The loop of `validate` from field `fields[0]` on, with the verdict so far. */
  function ValidateFrom(env: Env, st: State, fields: seq<Field>, validForm: bool): (c: Called<bool>)
    ensures c.result.Ok? ==> c.state.valid == c.result.value
    decreases |fields|
  {
    if |fields| == 0 then Called(st.(valid := validForm), Ok(validForm))
    else
      var c1 := Check(env, st, fields[0]);
      match c1.result
      case Throw(e) => Called(c1.state, Throw(e))
      case Ok(b) => ValidateFrom(env, c1.state, fields[1..], validForm && b)
  }

  /** `validate()`: check every field, with no early exit, then store and return the verdict. */
  function Validate(env: Env, st: State, fields: seq<Field>): (c: Called<bool>)
    ensures c.result.Ok? ==> c.state.valid == c.result.value
    ensures st.validations.None? && |fields| > 0 ==> c.result == Throw(TypeError)
  {
    ValidateFrom(env, st, fields, true)
  }

  /** The rules, methods and messages a check reads stay the same along `validate`. */
  lemma CheckKeepsVerdicts(env: Env, st: State, f: Field, g: Field)
    requires st.validations.Some?
    ensures Check(env, st, f).state.validations.Some?
    ensures FieldPasses(Camel, env, TablesOf(Check(env, st, f).state), g) == FieldPasses(Camel, env, TablesOf(st), g)
    ensures ErrorEntry(Camel, env, TablesOf(Check(env, st, f).state), g) == ErrorEntry(Camel, env, TablesOf(st), g)
  {
    var t := TablesOf(st);
    assert TablesOf(Check(env, st, f).state) == t.(rules := CheckedRules(t.rules, f.name));
    CheckedRulesStable(Camel, env, t, f.name, g);
  }

  /**
   * `validate` returns true exactly when every field passes its check: all
   * fields are looked at, and one failure anywhere makes the form invalid.
   */
  lemma {:induction false} ValidateVerdict(env: Env, st: State, fields: seq<Field>, validForm: bool)
    requires st.validations.Some?
    ensures ValidateFrom(env, st, fields, validForm).result.Ok? ==>
      ValidateFrom(env, st, fields, validForm).result.value == (validForm && AllPass(Camel, env, TablesOf(st), fields))
    decreases |fields|
  {
    if |fields| > 0 {
      var c1 := Check(env, st, fields[0]);
      var t := TablesOf(st);
      var rest := fields[1..];
      ValidateStep(env, st, fields, validForm);
      if c1.result.Ok? {
        ValidateVerdict(env, c1.state, rest, validForm && c1.result.value);
        forall i | 0 <= i < |rest|
          ensures FieldPasses(Camel, env, TablesOf(c1.state), rest[i]) == FieldPasses(Camel, env, t, rest[i])
        {
          CheckKeepsVerdicts(env, st, fields[0], rest[i]);
        }
        assert AllPass(Camel, env, TablesOf(c1.state), rest) == AllPass(Camel, env, t, rest);
        AllPassCons(Camel, env, t, fields);
      }
    }
  }

  /** A check does not change the run of any field that has rules. */
  lemma CheckKeepsRuns(env: Env, st: State, f: Field, g: Field)
    requires st.validations.Some? && g.name in st.validations.value.rules
    ensures Check(env, st, f).state.validations.Some?
    ensures g.name in Check(env, st, f).state.validations.value.rules
    ensures FieldRun(Camel, env, TablesOf(Check(env, st, f).state), g) == FieldRun(Camel, env, TablesOf(st), g)
  {
    var t := TablesOf(st);
    assert TablesOf(Check(env, st, f).state) == t.(rules := CheckedRules(t.rules, f.name));
    if f.name in t.rules {
      FieldRunStable(Camel, env, t, f.name, g);
    }
  }

  /** No field of `fields` that has rules ends its rule loop with an exception. */
  predicate NoRunThrows(env: Env, t: Tables, fields: seq<Field>)
  {
    forall i | 0 <= i < |fields| && fields[i].name in t.rules :: FieldRun(Camel, env, t, fields[i]).error.None?
  }

  lemma NoRunThrowsCons(env: Env, t: Tables, fields: seq<Field>)
    requires |fields| > 0
    ensures NoRunThrows(env, t, fields) <==>
      (fields[0].name in t.rules ==> FieldRun(Camel, env, t, fields[0]).error.None?) && NoRunThrows(env, t, fields[1..])
  {
    ForallFirst(fields, (g: Field) => g.name in t.rules ==> FieldRun(Camel, env, t, g).error.None?);
  }

  /** A check does not change whether the later fields' loops throw. */
  lemma CheckKeepsThrows(env: Env, st: State, f: Field, fields: seq<Field>)
    requires st.validations.Some?
    ensures Check(env, st, f).state.validations.Some?
    ensures NoRunThrows(env, TablesOf(Check(env, st, f).state), fields) == NoRunThrows(env, TablesOf(st), fields)
  {
    var t := TablesOf(st);
    var u := TablesOf(Check(env, st, f).state);
    assert u.rules.Keys == t.rules.Keys;
    forall i | 0 <= i < |fields| && fields[i].name in t.rules
      ensures FieldRun(Camel, env, u, fields[i]) == FieldRun(Camel, env, t, fields[i])
    {
      CheckKeepsRuns(env, st, f, fields[i]);
    }
  }

  /**
   * `validate` finishes exactly when no field's rule loop throws: `check`
   * throws only out of the loop, and `validate` visits every field.
   */
  lemma {:induction false} ValidateFinishes(env: Env, st: State, fields: seq<Field>, validForm: bool)
    requires st.validations.Some?
    ensures ValidateFrom(env, st, fields, validForm).result.Ok? <==> NoRunThrows(env, TablesOf(st), fields)
    decreases |fields|
  {
    if |fields| > 0 {
      var c1 := Check(env, st, fields[0]);
      ValidateStep(env, st, fields, validForm);
      NoRunThrowsCons(env, TablesOf(st), fields);
      if c1.result.Ok? {
        ValidateFinishes(env, c1.state, fields[1..], validForm && c1.result.value);
        CheckKeepsThrows(env, st, fields[0], fields[1..]);
      }
    }
  }

  /**
   * When no field's rule loop throws, `validate` returns, and it returns
   * false exactly when some field fails.
   */
  lemma ValidateReturnsVerdict(env: Env, st: State, fields: seq<Field>)
    requires st.validations.Some? && NoRunThrows(env, TablesOf(st), fields)
    ensures Validate(env, st, fields).result == Ok(AllPass(Camel, env, TablesOf(st), fields))
  {
    ValidateFinishes(env, st, fields, true);
    ValidateVerdict(env, st, fields, true);
  }

  /** One turn of the `validate` loop. */
  lemma ValidateStep(env: Env, st: State, fields: seq<Field>, validForm: bool)
    requires |fields| > 0
    ensures var c1 := Check(env, st, fields[0]);
      ValidateFrom(env, st, fields, validForm) ==
        if c1.result.Ok? then ValidateFrom(env, c1.state, fields[1..], validForm && c1.result.value)
        else Called(c1.state, Throw(c1.result.error))
  {
  }

  /** A field that is the last of its name stays so once the first field is dropped. */
  lemma LastWithNameTail(fields: seq<Field>, i: int)
    requires 0 < i < |fields| && LastWithName(fields, i)
    ensures fields[1..][i - 1] == fields[i] && LastWithName(fields[1..], i - 1)
  {
    var rest := fields[1..];
    forall j | i - 1 < j < |rest|
      ensures rest[j].name != rest[i - 1].name
    {
      assert rest[j] == fields[j + 1];
    }
  }

  /**
   * After a `validate` that returns, the error map holds, for every field name
   * checked, what the last field of that name left behind, and nothing has
   * changed for any other name.
   */
  lemma {:induction false} ValidateErrors(env: Env, st: State, fields: seq<Field>, validForm: bool)
    requires st.validations.Some?
    requires ValidateFrom(env, st, fields, validForm).result.Ok?
    ensures var errors := ValidateFrom(env, st, fields, validForm).state.errors;
      && (forall n | !NamedIn(fields, n) :: Lookup(errors, n) == Lookup(st.errors, n))
      && (forall i | 0 <= i < |fields| && LastWithName(fields, i) ::
            Lookup(errors, fields[i].name) == ErrorEntry(Camel, env, TablesOf(st), fields[i]))
    decreases |fields|
  {
    if |fields| > 0 {
      var c1 := Check(env, st, fields[0]);
      var rest := fields[1..];
      ValidateStep(env, st, fields, validForm);
      assert c1.result.Ok?;
      ValidateErrors(env, c1.state, rest, validForm && c1.result.value);
      var errors := ValidateFrom(env, st, fields, validForm).state.errors;
      forall n | !NamedIn(fields, n)
        ensures Lookup(errors, n) == Lookup(st.errors, n)
      {
        NamedInCons(fields, n);
      }
      forall i | 0 <= i < |fields| && LastWithName(fields, i)
        ensures Lookup(errors, fields[i].name) == ErrorEntry(Camel, env, TablesOf(st), fields[i])
      {
        CheckKeepsVerdicts(env, st, fields[0], fields[i]);
        if i > 0 {
          LastWithNameTail(fields, i);
        } else {
          LastWithNameFirst(fields);
        }
      }
    }
  }

  /** `errorsMessages(fieldName)`: one field's list, or the report of the whole map. */
  datatype ErrorsReport = FieldList(list: Option<seq<string>>) | LastMessages(messages: seq<Option<string>>)

  /** `list[list.length - 1]`, `undefined` for an empty list. */
  function LastOf(list: seq<string>): Option<string>
  {
    if |list| == 0 then None else Some(list[|list| - 1])
  }

  function LastMessagesOf(errors: Obj<seq<string>>, ks: seq<string>): (r: seq<Option<string>>)
    requires forall k | k in ks :: k in errors.keys
    ensures |r| == |ks|
    ensures forall i | 0 <= i < |ks| :: r[i] == LastOf(errors.values[ks[i]])
  {
    if |ks| == 0 then [] else [LastOf(errors.values[ks[0]])] + LastMessagesOf(errors, ks[1..])
  }

  /**
   * `errorsMessages(fieldName)`: with a truthy name, that field's list
   * (`undefined` when it has none); otherwise the last message of every list,
   * one per field, in the order `for...in` visits the error map.
   */
  function ErrorsMessages(st: State, fieldName: Option<string>): (r: ErrorsReport)
    ensures r.FieldList? <==> fieldName.Some? && fieldName.value != ""
    ensures r.FieldList? ==> r.list == Lookup(st.errors, fieldName.value)
    ensures r.LastMessages? ==> |r.messages| == |st.errors.keys|
    ensures r.LastMessages? ==> forall i | 0 <= i < |r.messages| ::
      exists k | k in st.errors.keys :: r.messages[i] == LastOf(st.errors.values[k])
    ensures r.LastMessages? ==> var ks := Enumerate(st.errors);
      forall i | 0 <= i < |ks| :: r.messages[i] == LastOf(st.errors.values[ks[i]])
  {
    if fieldName.Some? && fieldName.value != "" then FieldList(Lookup(st.errors, fieldName.value))
    else
      var ks := Enumerate(st.errors);
      var ms := LastMessagesOf(st.errors, ks);
      assert forall i | 0 <= i < |ms| :: ks[i] in st.errors.keys;
      LastMessages(ms)
  }

  /**
   * With no errors recorded before, a `validate` that returns true leaves no
   * error to report, whether or not field names repeat.
   */
  lemma ValidReportsNoErrors(env: Env, st: State, fields: seq<Field>)
    requires st.validations.Some? && st.errors == NoErrors
    requires Validate(env, st, fields).result == Ok(true)
    ensures ErrorsMessages(Validate(env, st, fields).state, None) == LastMessages([])
  {
    var c := Validate(env, st, fields);
    ValidateVerdict(env, st, fields, true);
    ValidateErrors(env, st, fields, true);
    var t := TablesOf(st);
    var errors := c.state.errors;
    forall k
      ensures Lookup(errors, k).None?
    {
      if NamedIn(fields, k) {
        var i := LastNamed(fields, k);
        assert Lookup(errors, k) == ErrorEntry(Camel, env, t, fields[i]);
      } else {
        assert Lookup(errors, k) == Lookup(NoErrors, k);
      }
    }
    assert errors.keys == [] || Lookup(errors, errors.keys[0]).Some?;
  }

  /**
   * With distinct field names and no errors recorded before, a `validate`
   * that returns false leaves at least one message to report: the last of a
   * failing field's list.
   */
  lemma InvalidReportsAnError(env: Env, st: State, fields: seq<Field>)
    requires st.validations.Some? && st.errors == NoErrors
    requires DistinctNames(fields)
    requires Validate(env, st, fields).result == Ok(false)
    ensures var report := ErrorsMessages(Validate(env, st, fields).state, None);
      exists i | 0 <= i < |report.messages| :: report.messages[i].Some?
  {
    var c := Validate(env, st, fields);
    ValidateVerdict(env, st, fields, true);
    ValidateErrors(env, st, fields, true);
    var t := TablesOf(st);
    var i :| 0 <= i < |fields| && !FieldPasses(Camel, env, t, fields[i]);
    assert LastWithName(fields, i);
    assert Lookup(c.state.errors, fields[i].name).Some?;
    ValidateKeepsListsNonEmpty(env, st, fields, true);
    ReportShowsEveryList(c.state, fields[i].name);
  }

  /** The last field carrying a name that occurs in `fields`. */
  lemma LastNamed(fields: seq<Field>, k: string) returns (i: nat)
    requires NamedIn(fields, k)
    ensures i < |fields| && fields[i].name == k && LastWithName(fields, i)
  {
    var j :| 0 <= j < |fields| && fields[j].name == k;
    i := LastNamedFrom(fields, k, j);
  }

  lemma LastNamedFrom(fields: seq<Field>, k: string, j: nat) returns (i: nat)
    requires j < |fields| && fields[j].name == k
    ensures i < |fields| && fields[i].name == k && LastWithName(fields, i)
    decreases |fields| - j
  {
    if m :| j < m < |fields| && fields[m].name == k {
      i := LastNamedFrom(fields, k, m);
    } else {
      i := j;
    }
  }

  /**
   * Controls sharing a name share one entry, and each check resets it: a
   * later control of the same name that passes erases an earlier control's
   * failure from the map, though the verdict still counts that failure.
   */
  lemma LaterPassErases(env: Env, st: State, fields: seq<Field>, i: nat, j: nat)
    requires st.validations.Some? && Validate(env, st, fields).result.Ok?
    requires i < j < |fields| && fields[i].name == fields[j].name && LastWithName(fields, j)
    requires FieldPasses(Camel, env, TablesOf(st), fields[j])
    ensures Lookup(Validate(env, st, fields).state.errors, fields[i].name) == None
    ensures !FieldPasses(Camel, env, TablesOf(st), fields[i]) ==> Validate(env, st, fields).result == Ok(false)
  {
    ValidateErrors(env, st, fields, true);
    ValidateVerdict(env, st, fields, true);
  }

  /** The names of the fields whose check leaves an entry, in field order. */
  function FailingNames(env: Env, t: Tables, fields: seq<Field>): (r: seq<string>)
    ensures forall k | k in r :: NamedIn(fields, k)
    decreases |fields|
  {
    if |fields| == 0 then []
    else
      var rest := FailingNames(env, t, fields[1..]);
      assert forall k | k in rest :: NamedIn(fields, k) by {
        forall k | k in rest
          ensures NamedIn(fields, k)
        {
          NamedInCons(fields, k);
        }
      }
      (if ErrorEntry(Camel, env, t, fields[0]).Some? then [fields[0].name] else []) + rest
  }

  /** For every field whose check leaves an entry, in field order, the last message of that entry. */
  function ReportOf(env: Env, t: Tables, fields: seq<Field>): seq<Option<string>>
    decreases |fields|
  {
    if |fields| == 0 then []
    else
      var e := ErrorEntry(Camel, env, t, fields[0]);
      (if e.Some? then [LastOf(e.value)] else []) + ReportOf(env, t, fields[1..])
  }

  /** A check does not change which later fields leave an entry, nor what they leave. */
  lemma {:induction false} CheckKeepsFailing(env: Env, st: State, f: Field, fields: seq<Field>)
    requires st.validations.Some?
    ensures FailingNames(env, TablesOf(Check(env, st, f).state), fields) == FailingNames(env, TablesOf(st), fields)
    ensures ReportOf(env, TablesOf(Check(env, st, f).state), fields) == ReportOf(env, TablesOf(st), fields)
    decreases |fields|
  {
    if |fields| > 0 {
      CheckKeepsVerdicts(env, st, f, fields[0]);
      CheckKeepsFailing(env, st, f, fields[1..]);
    }
  }

  /** A check of a field not yet in the map adds its name at the end exactly when it leaves an entry. */
  lemma CheckKeys(env: Env, st: State, f: Field)
    requires st.validations.Some? && f.name !in st.errors.keys
    requires Check(env, st, f).result.Ok?
    ensures Check(env, st, f).state.errors.keys ==
      st.errors.keys + (if ErrorEntry(Camel, env, TablesOf(st), f).Some? then [f.name] else [])
  {
    var v := st.validations.value;
    var run := if f.name in v.rules then FieldRun(Camel, env, TablesOf(st), f) else Run([], None);
    assert Check(env, st, f).state.errors == Settle(st.errors, f.name, run).0;
    assert ErrorEntry(Camel, env, TablesOf(st), f).Some? <==> run != Run([], None);
    SettleKeys(st.errors, f.name, run);
  }

  /** Settling a name not yet in the map adds it at the end exactly when the run recorded something. */
  lemma SettleKeys(errors: Obj<seq<string>>, name: string, run: Run)
    requires name !in errors.keys && run.error.None?
    ensures Settle(errors, name, run).0.keys == errors.keys + (if run != Run([], None) then [name] else [])
  {
    if |run.pushed| == 0 {
      RemoveAppendedKey(errors.keys, name);
    }
  }

  /**
   * From a map holding none of the fields' names, a `validate` that returns
   * adds the names of the fields that leave an entry, in field order.
   */
  lemma {:induction false} ValidateKeys(env: Env, st: State, fields: seq<Field>, validForm: bool)
    requires st.validations.Some? && DistinctNames(fields)
    requires forall i | 0 <= i < |fields| :: fields[i].name !in st.errors.keys
    requires ValidateFrom(env, st, fields, validForm).result.Ok?
    ensures ValidateFrom(env, st, fields, validForm).state.errors.keys == st.errors.keys + FailingNames(env, TablesOf(st), fields)
    decreases |fields|
  {
    if |fields| > 0 {
      var c1 := Check(env, st, fields[0]);
      var rest := fields[1..];
      ValidateStep(env, st, fields, validForm);
      assert c1.result.Ok?;
      CheckKeys(env, st, fields[0]);
      CheckKeepsVerdicts(env, st, fields[0], fields[0]);
      CheckKeepsFailing(env, st, fields[0], rest);
      forall a, b | 0 <= a < b < |rest|
        ensures rest[a].name != rest[b].name
      {
        assert rest[a] == fields[a + 1] && rest[b] == fields[b + 1];
      }
      forall a | 0 <= a < |rest|
        ensures rest[a].name !in c1.state.errors.keys
      {
        assert rest[a] == fields[a + 1];
      }
      ValidateKeys(env, c1.state, rest, validForm && c1.result.value);
      var head := if ErrorEntry(Camel, env, TablesOf(st), fields[0]).Some? then [fields[0].name] else [];
      JoinAssociates(st.errors.keys, head, FailingNames(env, TablesOf(st), rest));
    } else {
      assert ValidateFrom(env, st, fields, validForm).state.errors == st.errors;
    }
  }

  /** Read through a map that holds each field's entry, the failing names give the field-order report. */
  lemma {:induction false} ReportMatches(env: Env, t: Tables, fields: seq<Field>, errors: Obj<seq<string>>)
    requires forall j | 0 <= j < |fields| :: Lookup(errors, fields[j].name) == ErrorEntry(Camel, env, t, fields[j])
    ensures forall k | k in FailingNames(env, t, fields) :: k in errors.keys
    ensures LastMessagesOf(errors, FailingNames(env, t, fields)) == ReportOf(env, t, fields)
    decreases |fields|
  {
    if |fields| > 0 {
      var rest := fields[1..];
      forall j | 0 <= j < |rest|
        ensures Lookup(errors, rest[j].name) == ErrorEntry(Camel, env, t, rest[j])
      {
        assert rest[j] == fields[j + 1];
      }
      ReportMatches(env, t, rest, errors);
      var ks := FailingNames(env, t, fields);
      var e := ErrorEntry(Camel, env, t, fields[0]);
      if e.Some? {
        assert Lookup(errors, fields[0].name) == e;
        assert ks[0] == fields[0].name && ks[1..] == FailingNames(env, t, rest);
      } else {
        assert ks == FailingNames(env, t, rest);
      }
    }
  }

  /**
   * With distinct field names that are not array indices and no errors
   * recorded before, a `validate` that returns leaves the report listing,
   * in field order, the last message of every field whose check failed.
   */
  lemma ValidateReportsInFieldOrder(env: Env, st: State, fields: seq<Field>)
    requires st.validations.Some? && st.errors == NoErrors && DistinctNames(fields)
    requires forall i | 0 <= i < |fields| :: !IsIndexKey(fields[i].name)
    requires Validate(env, st, fields).result.Ok?
    ensures ErrorsMessages(Validate(env, st, fields).state, None) == LastMessages(ReportOf(env, TablesOf(st), fields))
  {
    var t := TablesOf(st);
    var errors := Validate(env, st, fields).state.errors;
    ValidateKeys(env, st, fields, true);
    ValidateErrors(env, st, fields, true);
    assert errors.keys == FailingNames(env, t, fields);
    forall i | 0 <= i < |errors.keys|
      ensures !IsIndexKey(errors.keys[i])
    {
      assert NamedIn(fields, errors.keys[i]);
    }
    assert Enumerate(errors) == errors.keys;
    ReportMatches(env, t, fields, errors);
  }

  /** The report without a field name holds the last message of every recorded list. */
  lemma ReportShowsEveryList(st: State, k: string)
    requires k in st.errors.keys && NoEmptyLists(st.errors)
    ensures var report := ErrorsMessages(st, None);
      exists i | 0 <= i < |report.messages| :: report.messages[i] == Some(st.errors.values[k][|st.errors.values[k]| - 1])
  {
    var ks := Enumerate(st.errors);
    assert k in ks;
    var j :| 0 <= j < |ks| && ks[j] == k;
    var ms := LastMessagesOf(st.errors, ks);
    assert ErrorsMessages(st, None) == LastMessages(ms);
    assert ms[j] == LastOf(st.errors.values[k]);
  }

  /** A `validate` that returns keeps every recorded list non-empty. */
  lemma {:induction false} ValidateKeepsListsNonEmpty(env: Env, st: State, fields: seq<Field>, validForm: bool)
    requires NoEmptyLists(st.errors)
    requires ValidateFrom(env, st, fields, validForm).result.Ok?
    ensures NoEmptyLists(ValidateFrom(env, st, fields, validForm).state.errors)
    decreases |fields|
  {
    if |fields| > 0 {
      var c1 := Check(env, st, fields[0]);
      ValidateKeepsListsNonEmpty(env, c1.state, fields[1..], validForm && c1.result.value);
    }
  }

  /**
   * `addMethod(name, method, message)`: register the method, make `message`
   * (or the generic fallback when it is falsy) the default for `name`, then
   * rebuild the message table; without validations the rebuild throws after
   * the first two steps took effect.
   */
  function AddMethod(env: Env, st: State, fields: seq<Field>, name: string, fn: Param, message: string): (c: Called<Unit>)
    ensures c.state.methods == Register(st.methods, name, fn)
    ensures c.state.validations == st.validations && c.state.errors == st.errors && c.state.valid == st.valid
    ensures c.state.config.defaultMessages == st.config.defaultMessages[name := OrDefault(message, st.config.defaultErrorMessage)]
    ensures st.validations.None? ==> c.result == Throw(TypeError)
    ensures st.validations.Some? ==>
      var res := ExchangeMessages(Camel, env, c.state.config.defaultMessages, st.config.defaultErrorMessage,
                                  st.validations.value.rules, st.validations.value.custom, fields);
      c.result == (if res.Ok? then Ok(Unit) else Throw(res.error))
    ensures c.result.Ok? ==> Ok(c.state.messages) == ExchangeMessages(Camel, env, c.state.config.defaultMessages,
      st.config.defaultErrorMessage, st.validations.value.rules, st.validations.value.custom, fields)
    ensures c.result.Throw? ==> c.state.messages == st.messages
  {
    var config := st.config.(defaultMessages := st.config.defaultMessages[name := OrDefault(message, st.config.defaultErrorMessage)]);
    var st1 := st.(methods := Register(st.methods, name, fn), config := config);
    if st.validations.None? then Called(st1, Throw(TypeError))
    else
      var v := st.validations.value;
      var res := ExchangeMessages(Camel, env, config.defaultMessages, config.defaultErrorMessage, v.rules, v.custom, fields);
      if res.Throw? then Called(st1, Throw(res.error))
      else Called(st1.(messages := res.value), Ok(Unit))
  }

  /**
   * After `addMethod(name, fn, message)` returns, a field whose rules give
   * `name` a truthy parameter and no custom message stores `message` with the
   * parameter filled in.
   */
  lemma AddMethodStoresMessage(env: Env, st: State, fields: seq<Field>, name: string, fn: Param, message: string, f: Field)
    requires AddMethod(env, st, fields, name, fn, message).result.Ok?
    requires NamedIn(fields, f.name)
    requires ActiveRule(st.validations.value.rules, f.name, name)
    requires !HasCustom(st.validations.value.custom, f.name, name)
    requires message != ""
    ensures var after := AddMethod(env, st, fields, name, fn, message).state;
      && f.name in after.messages && name in after.messages[f.name]
      && after.messages[f.name][name] == ReplaceMessageParams(env, message, ParamOf(st.validations.value.rules[f.name], name))
  {
    var after := AddMethod(env, st, fields, name, fn, message).state;
    var v := st.validations.value;
    var fm := FieldMessages(Camel, env, after.config.defaultMessages, st.config.defaultErrorMessage, v.rules, v.custom, f.name);
    assert Ok(after.messages[f.name]) == fm;
    assert DefaultTemplate(after.config.defaultMessages, st.config.defaultErrorMessage, name) == message;
  }

}

=== FILE: form_validator_snake.dfy ===
/**
 * assets/form_validator.js: the validator without options. Stored messages
 * keep their `{0}` placeholder until they are shown, `check` never clears
 * an error list, so the lists grow with every `validate`, and `valid()`
 * records the verdict without returning it.
 */
module FormValidatorSnake {
  import opened JsValues
  import opened JsObjects
  import opened JsStrings
  import opened Host
  import opened Rules
  import opened Messages
  import opened Engine

  const DefaultErrorMessage: string := "Fix this field."

  /** `_defaultMessages` as the object literal declares it. */
  const DefaultMessages: map<string, string> :=
    map["required" := "This field is required",
        "email" := "Fill this field with the format \"user@server.com\"",
        "min" := "Fill this field with minimun of {0} characters.",
        "max" := "Fill this field with maximun of {0} characters.",
        "equalTo" := "This field is wrong."]

  /** The validator object: validations, `_defaultMessages`, `_validations`, `_messages`, `_errors`, `_valid`. */
  datatype State = State(
    validations: Validations,
    defaultMessages: map<string, string>,
    methods: Methods,
    messages: MessageTable,
    errors: Obj<seq<string>>,
    valid: bool)

  /** The state after a call, and what the call returned or threw. */
  datatype Called<T> = Called(state: State, result: Result<T>)

  function TablesOf(st: State): Tables
  {
    Tables(st.validations.rules, st.methods, st.messages)
  }

  /**
   * `required` switches on the parameter's type only: there is no element
   * branch, and a selector string falls out of the switch with `undefined`,
   * a failure, where the first revision throws.
   */
  lemma RequiredByType(env: Env, f: Field, p: Param)
    ensures p.Bool? ==> Required(Snake, env, f, p) == Ok(f.value != "")
    ensures p.Func? ==> Required(Snake, env, f, p) == Ok(env.callRequired(p.source, f, f.value))
    ensures p.Str? ==> Required(Snake, env, f, p) == Ok(false)
    ensures p.Str? && f.control == TextControl ==> Required(Camel, env, f, p).Throw?
  {
  }

  /**
   * `email`, `min` and `max` and the `optional` they consult read exactly as
   * in the first revision; `equalTo` differs only in searching the document
   * instead of the form.
   */
  lemma PredicatesAgree(env: Env, rules: RuleTable, m: Method, f: Field, p: Param)
    requires m == EmailMethod || m == MinMethod || m == MaxMethod
    ensures Evaluate(Snake, env, rules, m, f, p) == Evaluate(Camel, env, rules, m, f, p)
    ensures Evaluate(Snake, env, rules, EqualToMethod, f, p) == EqualTo(env, InDocument, rules, f, p)
  {
  }

  /** This revision never substitutes while it builds the table, so building it cannot throw. */
  lemma ExchangeNeverThrows(env: Env, defaults: map<string, string>, rules: RuleTable, custom: CustomMessages, fields: seq<Field>)
    ensures ExchangeMessages(Snake, env, defaults, DefaultErrorMessage, rules, custom, fields).Ok?
  {
    forall i | 0 <= i < |fields|
      ensures FieldMessages(Snake, env, defaults, DefaultErrorMessage, rules, custom, fields[i].name).Ok?
    {
    }
  }

  /** `exchangeMessages(defaults, validations.messages)` over the form's fields. */
  function Exchange(env: Env, defaults: map<string, string>, v: Validations, fields: seq<Field>): (m: MessageTable)
    ensures forall n :: n in m <==> NamedIn(fields, n)
    ensures forall n | n in m :: Ok(m[n]) == FieldMessages(Snake, env, defaults, DefaultErrorMessage, v.rules, v.custom, n)
  {
    ExchangeNeverThrows(env, defaults, v.rules, v.custom, fields);
    ExchangeMessages(Snake, env, defaults, DefaultErrorMessage, v.rules, v.custom, fields).value
  }

  /**
   * Construction and `init()`: the message table is built from
   * `validations.messages`, so a validator created without validations
   * throws. `_valid` starts false and no error is recorded.
   */
  function Init(env: Env, validations: Option<Validations>, fields: seq<Field>): (r: Result<State>)
    ensures r.Throw? <==> validations.None?
    ensures r.Throw? ==> r.error == TypeError
    ensures r.Ok? ==> && !r.value.valid && r.value.errors == NoErrors && r.value.methods == Builtins
                      && r.value.defaultMessages == DefaultMessages && r.value.validations == validations.value
    ensures r.Ok? ==> forall n :: n in r.value.messages <==> NamedIn(fields, n)
    ensures r.Ok? ==> forall n | n in r.value.messages ::
      Ok(r.value.messages[n]) == FieldMessages(Snake, env, DefaultMessages, DefaultErrorMessage,
                                               validations.value.rules, validations.value.custom, n)
  {
    match validations
    case None => Throw(TypeError)
    case Some(v) => Ok(State(v, DefaultMessages, Builtins, Exchange(env, DefaultMessages, v, fields), NoErrors, false))
  }

  /**
   * A rule with a truthy parameter and no custom message stores its default
   * template as written: the minimum length is not in the stored text.
   */
  lemma InitStoresTemplates(env: Env, v: Validations, fields: seq<Field>, f: Field, rule: string)
    requires NamedIn(fields, f.name)
    requires ActiveRule(v.rules, f.name, rule) && !HasCustom(v.custom, f.name, rule)
    ensures var st := Init(env, Some(v), fields).value;
      && f.name in st.messages && rule in st.messages[f.name]
      && st.messages[f.name][rule] == DefaultTemplate(DefaultMessages, DefaultErrorMessage, rule)
  {
    var m := Exchange(env, DefaultMessages, v, fields);
    assert Init(env, Some(v), fields).value.messages == m;
    assert Ok(m[f.name]) == FieldMessages(Snake, env, DefaultMessages, DefaultErrorMessage, v.rules, v.custom, f.name);
  }

  /** The list after messages are pushed onto it, created by the first push. */
  function Grow(before: Option<seq<string>>, pushed: seq<string>): (r: Option<seq<string>>)
    ensures before.Some? ==> r.Some? && before.value <= r.value
    ensures r.Some? <==> before.Some? || |pushed| > 0
    ensures r.Some? ==> r.value == (if before.Some? then before.value else []) + pushed
  {
    if |pushed| == 0 then before
    else match before
      case None => Some(pushed)
      case Some(list) => Some(list + pushed)
  }

  /** The messages `check` pushes for a field: none for a field without rules. */
  function Pushed(env: Env, t: Tables, f: Field): seq<string>
  {
    if f.name in t.rules then FieldRun(Snake, env, t, f).pushed else []
  }

  /**
   * `check(field)`: for a field with rules, normalise them and run them; each
   * failure pushes its stored message onto `_errors[name]`, which is never
   * reset. The result is true exactly when nothing was pushed; an exception
   * keeps what was pushed before it.
   */
  function Check(env: Env, st: State, f: Field): (c: Called<bool>)
    ensures c.state == st.(errors := c.state.errors, validations := c.state.validations)
    ensures c.state.validations == st.validations.(rules := CheckedRules(st.validations.rules, f.name))
    ensures forall k | k != f.name :: Lookup(c.state.errors, k) == Lookup(st.errors, k)
    ensures Lookup(c.state.errors, f.name) == Grow(Lookup(st.errors, f.name), Pushed(env, TablesOf(st), f))
    ensures c.result.Throw? <==> f.name in st.validations.rules && FieldRun(Snake, env, TablesOf(st), f).error.Some?
    ensures c.result == Ok(true) <==> FieldPasses(Snake, env, TablesOf(st), f)
    ensures c.result == Ok(false) ==> |Pushed(env, TablesOf(st), f)| > 0
  {
    var t := TablesOf(st);
    if f.name !in st.validations.rules then Called(st, Ok(true))
    else
      var run := FieldRun(Snake, env, t, f);
      var errors := if |run.pushed| == 0 then st.errors
                    else Put(st.errors, f.name, Grow(Lookup(st.errors, f.name), run.pushed).value);
      var st' := st.(validations := st.validations.(rules := NormalizeEntry(st.validations.rules, f.name)), errors := errors);
      match run.error
      case Some(e) => Called(st', Throw(e))
      case None => Called(st', Ok(|run.pushed| == 0))
  }

  /** The loop of `validate` from field `fields[0]` on, with the verdict so far. */
  function ValidateFrom(env: Env, st: State, fields: seq<Field>, validForm: bool): (c: Called<Unit>)
    ensures c.result.Throw? ==> c.state.valid == st.valid
    decreases |fields|
  {
    if |fields| == 0 then Called(st.(valid := validForm), Ok(Unit))
    else
      var c1 := Check(env, st, fields[0]);
      match c1.result
      case Throw(e) => Called(c1.state, Throw(e))
      case Ok(b) => ValidateFrom(env, c1.state, fields[1..], validForm && b)
  }

  /** `valid()`: check every field, with no early exit, and store the verdict in `_valid`; the call itself returns nothing. */
  function Validate(env: Env, st: State, fields: seq<Field>): (c: Called<Unit>)
    ensures c.result.Throw? ==> c.state.valid == st.valid
  {
    ValidateFrom(env, st, fields, true)
  }

  /** One turn of the `validate` loop. */
  lemma ValidateStep(env: Env, st: State, fields: seq<Field>, validForm: bool)
    requires |fields| > 0
    ensures var c1 := Check(env, st, fields[0]);
      ValidateFrom(env, st, fields, validForm) ==
        if c1.result.Ok? then ValidateFrom(env, c1.state, fields[1..], validForm && c1.result.value)
        else Called(c1.state, Throw(c1.result.error))
  {
  }

  /** A check normalises the field's rules and leaves the methods and messages alone. */
  lemma CheckTables(env: Env, st: State, f: Field)
    ensures TablesOf(Check(env, st, f).state) == TablesOf(st).(rules := CheckedRules(st.validations.rules, f.name))
  {
  }

  /** A check does not change whether a later field passes. */
  lemma CheckKeepsVerdicts(env: Env, st: State, f: Field, g: Field)
    ensures FieldPasses(Snake, env, TablesOf(Check(env, st, f).state), g) == FieldPasses(Snake, env, TablesOf(st), g)
  {
    CheckTables(env, st, f);
    CheckedRulesStable(Snake, env, TablesOf(st), f.name, g);
  }

  /** A check does not change the run of a later field. */
  lemma CheckKeepsRuns(env: Env, st: State, f: Field, g: Field)
    ensures g.name in st.validations.rules ==>
      FieldRun(Snake, env, TablesOf(Check(env, st, f).state), g) == FieldRun(Snake, env, TablesOf(st), g)
    ensures Pushed(env, TablesOf(Check(env, st, f).state), g) == Pushed(env, TablesOf(st), g)
  {
    var t := TablesOf(st);
    CheckTables(env, st, f);
    if f.name in t.rules && g.name in t.rules {
      FieldRunStable(Snake, env, t, f.name, g);
    }
  }

  /**
   * After a `valid()` that returns, `_valid` is true exactly when every field
   * passes its check.
   */
  lemma {:induction false} ValidateVerdict(env: Env, st: State, fields: seq<Field>, validForm: bool)
    ensures ValidateFrom(env, st, fields, validForm).result.Ok? ==>
      ValidateFrom(env, st, fields, validForm).state.valid == (validForm && AllPass(Snake, env, TablesOf(st), fields))
    decreases |fields|
  {
    if |fields| > 0 {
      var c1 := Check(env, st, fields[0]);
      var t := TablesOf(st);
      var rest := fields[1..];
      ValidateStep(env, st, fields, validForm);
      if c1.result.Ok? {
        ValidateVerdict(env, c1.state, rest, validForm && c1.result.value);
        forall i | 0 <= i < |rest|
          ensures FieldPasses(Snake, env, TablesOf(c1.state), rest[i]) == FieldPasses(Snake, env, t, rest[i])
        {
          CheckKeepsVerdicts(env, st, fields[0], rest[i]);
        }
        assert AllPass(Snake, env, TablesOf(c1.state), rest) == AllPass(Snake, env, t, rest);
        assert c1.result.value == FieldPasses(Snake, env, t, fields[0]);
        AllPassCons(Snake, env, t, fields);
      }
    }
  }

  /** Every list of `before` is still in `after`, as a prefix of the list there. */
  predicate Extends(before: Obj<seq<string>>, after: Obj<seq<string>>)
  {
    forall k | k in before.keys :: k in after.keys && before.values[k] <= after.values[k]
  }

  lemma ExtendsTransitive(a: Obj<seq<string>>, b: Obj<seq<string>>, c: Obj<seq<string>>)
    requires Extends(a, b) && Extends(b, c)
    ensures Extends(a, c)
  {
    forall k | k in a.keys
      ensures a.values[k] <= c.values[k]
    {
      var x, y, z := a.values[k], b.values[k], c.values[k];
      assert x == y[..|x|] && y == z[..|y|];
      assert x == z[..|x|];
    }
  }

  /** A single `check` only appends to the list it touches. */
  lemma CheckExtends(env: Env, st: State, f: Field)
    ensures Extends(st.errors, Check(env, st, f).state.errors)
  {
    var after := Check(env, st, f).state.errors;
    forall k | k in st.errors.keys
      ensures k in after.keys && st.errors.values[k] <= after.values[k]
    {
      assert Lookup(st.errors, k).Some?;
      if k != f.name {
        assert Lookup(after, k) == Lookup(st.errors, k);
      }
    }
  }

  /**
   * Error lists only grow: whatever was recorded before a `valid()` call is
   * still a prefix of the list afterwards, whether the call returns or throws.
   */
  lemma {:induction false} ValidateKeepsOldErrors(env: Env, st: State, fields: seq<Field>, validForm: bool)
    ensures Extends(st.errors, ValidateFrom(env, st, fields, validForm).state.errors)
    decreases |fields|
  {
    if |fields| > 0 {
      var c1 := Check(env, st, fields[0]);
      ValidateStep(env, st, fields, validForm);
      CheckExtends(env, st, fields[0]);
      if c1.result.Ok? {
        var final := ValidateFrom(env, st, fields, validForm).state.errors;
        ValidateKeepsOldErrors(env, c1.state, fields[1..], validForm && c1.result.value);
        ExtendsTransitive(st.errors, c1.state.errors, final);
      }
    } else {
      assert ValidateFrom(env, st, fields, validForm).state.errors == st.errors;
    }
  }

  /**
   * With distinct field names, a `valid()` that returns appends to each
   * field's list exactly the messages its own check pushed, and leaves the
   * lists of other names alone.
   */
  lemma {:induction false} ValidateErrors(env: Env, st: State, fields: seq<Field>, validForm: bool)
    requires DistinctNames(fields)
    ensures var errors := ValidateFrom(env, st, fields, validForm).state.errors;
      && (forall n | !NamedIn(fields, n) :: Lookup(errors, n) == Lookup(st.errors, n))
      && (ValidateFrom(env, st, fields, validForm).result.Ok? ==>
            forall i | 0 <= i < |fields| ::
              Lookup(errors, fields[i].name) == Grow(Lookup(st.errors, fields[i].name), Pushed(env, TablesOf(st), fields[i])))
    decreases |fields|
  {
    if |fields| > 0 {
      var c1 := Check(env, st, fields[0]);
      ValidateStep(env, st, fields, validForm);
      var rest := fields[1..];
      assert DistinctNames(rest) by {
        forall i, j | 0 <= i < j < |rest|
          ensures rest[i].name != rest[j].name
        {
          assert rest[i] == fields[i + 1] && rest[j] == fields[j + 1];
        }
      }
      if c1.result.Ok? {
        ValidateErrors(env, c1.state, rest, validForm && c1.result.value);
      }
      var errors := ValidateFrom(env, st, fields, validForm).state.errors;
      forall n | !NamedIn(fields, n)
        ensures Lookup(errors, n) == Lookup(st.errors, n)
      {
        assert n != fields[0].name;
        assert !NamedIn(rest, n) by {
          forall j | 0 <= j < |rest|
            ensures rest[j].name != n
          {
            assert rest[j] == fields[j + 1];
          }
        }
      }
      if ValidateFrom(env, st, fields, validForm).result.Ok? {
        forall i | 0 <= i < |fields|
          ensures Lookup(errors, fields[i].name) == Grow(Lookup(st.errors, fields[i].name), Pushed(env, TablesOf(st), fields[i]))
        {
          CheckKeepsRuns(env, st, fields[0], fields[i]);
          if i == 0 {
            assert !NamedIn(rest, fields[0].name) by {
              forall j | 0 <= j < |rest|
                ensures rest[j].name != fields[0].name
              {
                assert rest[j] == fields[j + 1];
              }
            }
          } else {
            assert rest[i - 1] == fields[i];
          }
        }
      }
    }
  }

  /** The list of a field validated once from an empty map is exactly its failure messages. */
  lemma FirstValidateReportsFailures(env: Env, st: State, fields: seq<Field>, i: nat)
    requires st.errors == NoErrors && DistinctNames(fields)
    requires Validate(env, st, fields).result.Ok?
    requires i < |fields| && fields[i].name in st.validations.rules
    ensures var t := TablesOf(st);
      var rs := NormalizeRules(t.rules[fields[i].name]);
      var failed := MessagesOf(t.messages, fields[i].name,
                               Failing(Snake, env, t.(rules := NormalizeEntry(t.rules, fields[i].name)), fields[i], rs, Enumerate(rs)));
      Lookup(Validate(env, st, fields).state.errors, fields[i].name) == if failed == [] then None else Some(failed)
  {
    var t := TablesOf(st);
    var f := fields[i];
    ValidateErrors(env, st, fields, true);
    ValidateVerdict(env, st, fields, true);
    var rs := NormalizeRules(t.rules[f.name]);
    var u := t.(rules := NormalizeEntry(t.rules, f.name));
    assert Pushed(env, t, f) == RunRules(Snake, env, u, f, rs, Enumerate(rs)).pushed;
    assert RunRules(Snake, env, u, f, rs, Enumerate(rs)).error.None? by {
      ValidateCompletes(env, st, fields, true, i);
    }
    RunPushesFailures(Snake, env, u, f, rs, Enumerate(rs));
  }

  /** A `valid()` that returns ran every field's rules without an exception. */
  lemma {:induction false} ValidateCompletes(env: Env, st: State, fields: seq<Field>, validForm: bool, i: nat)
    requires ValidateFrom(env, st, fields, validForm).result.Ok?
    requires i < |fields| && fields[i].name in st.validations.rules
    ensures FieldRun(Snake, env, TablesOf(st), fields[i]).error.None?
    decreases |fields|
  {
    var c1 := Check(env, st, fields[0]);
    ValidateStep(env, st, fields, validForm);
    if i == 0 {
      assert c1.result.Ok?;
    } else {
      var rest := fields[1..];
      assert c1.result.Ok? && rest[i - 1] == fields[i];
      ValidateCompletes(env, c1.state, rest, validForm && c1.result.value, i - 1);
      CheckKeepsRuns(env, st, fields[0], fields[i]);
    }
  }

  /** What a field's check would push does not change along `valid()`. */
  lemma {:induction false} ValidateKeepsPushed(env: Env, st: State, fields: seq<Field>, validForm: bool, g: Field)
    ensures Pushed(env, TablesOf(ValidateFrom(env, st, fields, validForm).state), g) == Pushed(env, TablesOf(st), g)
    decreases |fields|
  {
    if |fields| > 0 {
      var c1 := Check(env, st, fields[0]);
      ValidateStep(env, st, fields, validForm);
      CheckKeepsRuns(env, st, fields[0], g);
      if c1.result.Ok? {
        ValidateKeepsPushed(env, c1.state, fields[1..], validForm && c1.result.value, g);
      }
    }
  }

  /**
   * Lists are never reset: with distinct names and nothing recorded before, a
   * second `valid()` leaves a failing field with its messages twice over.
   */
  lemma ValidateTwiceRepeats(env: Env, st: State, fields: seq<Field>, i: nat)
    requires st.errors == NoErrors && DistinctNames(fields)
    requires Validate(env, st, fields).result.Ok?
    requires Validate(env, Validate(env, st, fields).state, fields).result.Ok?
    requires i < |fields|
    ensures var p := Pushed(env, TablesOf(st), fields[i]);
      var twice := Validate(env, Validate(env, st, fields).state, fields).state.errors;
      Lookup(twice, fields[i].name) == if p == [] then None else Some(p + p)
  {
    var once := Validate(env, st, fields).state;
    ValidateErrors(env, st, fields, true);
    ValidateErrors(env, once, fields, true);
    ValidateKeepsPushed(env, st, fields, true, fields[i]);
  }

  /**
   * Everything the checks of `fields` push under the name `n`, in field
   * order: controls that share a name share one list.
   */
  function PushedFor(env: Env, t: Tables, fields: seq<Field>, n: string): (r: seq<string>)
    ensures !NamedIn(fields, n) ==> r == []
    decreases |fields|
  {
    if |fields| == 0 then []
    else (if fields[0].name == n then Pushed(env, t, fields[0]) else []) + PushedFor(env, t, fields[1..], n)
  }

  /** With distinct names, the messages pushed under a field's name are its own. */
  lemma {:induction false} PushedForDistinct(env: Env, t: Tables, fields: seq<Field>, i: nat)
    requires DistinctNames(fields) && i < |fields|
    ensures PushedFor(env, t, fields, fields[i].name) == Pushed(env, t, fields[i])
    decreases |fields|
  {
    var rest := fields[1..];
    var n := fields[i].name;
    DistinctTail(fields);
    assert PushedFor(env, t, fields, n) ==
      (if fields[0].name == n then Pushed(env, t, fields[0]) else []) + PushedFor(env, t, rest, n);
    if i == 0 {
      LastWithNameFirst(fields);
    } else {
      assert rest[i - 1] == fields[i];
      PushedForDistinct(env, t, rest, i - 1);
    }
  }

  /** Pushing twice is pushing the concatenation once. */
  lemma GrowTwice(before: Option<seq<string>>, p: seq<string>, q: seq<string>)
    ensures Grow(Grow(before, p), q) == Grow(before, p + q)
  {
    if before.Some? {
      assert before.value + p + q == before.value + (p + q);
    }
  }

  /** A check does not change what later fields would push under any name. */
  lemma {:induction false} CheckKeepsPushedFor(env: Env, st: State, f: Field, fields: seq<Field>, n: string)
    ensures PushedFor(env, TablesOf(Check(env, st, f).state), fields, n) == PushedFor(env, TablesOf(st), fields, n)
    decreases |fields|
  {
    if |fields| > 0 {
      CheckKeepsRuns(env, st, f, fields[0]);
      CheckKeepsPushedFor(env, st, f, fields[1..], n);
    }
  }

  /**
   * A `valid()` that returns leaves every name's list as it was, followed
   * by what each control of that name pushed, in field order. Names need
   * not be distinct.
   */
  lemma {:induction false} ValidateCollects(env: Env, st: State, fields: seq<Field>, validForm: bool)
    ensures var c := ValidateFrom(env, st, fields, validForm);
      c.result.Ok? ==>
        forall n :: Lookup(c.state.errors, n) == Grow(Lookup(st.errors, n), PushedFor(env, TablesOf(st), fields, n))
    decreases |fields|
  {
    var c := ValidateFrom(env, st, fields, validForm);
    if |fields| > 0 {
      var c1 := Check(env, st, fields[0]);
      var rest := fields[1..];
      ValidateStep(env, st, fields, validForm);
      if c1.result.Ok? && c.result.Ok? {
        ValidateCollects(env, c1.state, rest, validForm && c1.result.value);
        forall n
          ensures Lookup(c.state.errors, n) == Grow(Lookup(st.errors, n), PushedFor(env, TablesOf(st), fields, n))
        {
          var own := if fields[0].name == n then Pushed(env, TablesOf(st), fields[0]) else [];
          CheckKeepsPushedFor(env, st, fields[0], rest, n);
          assert Lookup(c1.state.errors, n) == Grow(Lookup(st.errors, n), own);
          GrowTwice(Lookup(st.errors, n), own, PushedFor(env, TablesOf(st), rest, n));
        }
      }
    } else {
      assert c.state.errors == st.errors;
    }
  }

  /** What the checks of `fields` push does not change along `valid()`. */
  lemma {:induction false} ValidateKeepsPushedFor(env: Env, st: State, fields: seq<Field>, validForm: bool, others: seq<Field>, n: string)
    ensures PushedFor(env, TablesOf(ValidateFrom(env, st, fields, validForm).state), others, n) == PushedFor(env, TablesOf(st), others, n)
    decreases |others|
  {
    if |others| > 0 {
      ValidateKeepsPushed(env, st, fields, validForm, others[0]);
      ValidateKeepsPushedFor(env, st, fields, validForm, others[1..], n);
    }
  }

  /**
   * Two `valid()` calls that both return leave every name's list as it was,
   * followed by the messages of that name's controls twice over.
   */
  lemma ValidateTwiceCollects(env: Env, st: State, fields: seq<Field>, n: string)
    requires Validate(env, st, fields).result.Ok?
    requires Validate(env, Validate(env, st, fields).state, fields).result.Ok?
    ensures var p := PushedFor(env, TablesOf(st), fields, n);
      var twice := Validate(env, Validate(env, st, fields).state, fields).state.errors;
      Lookup(twice, n) == Grow(Lookup(st.errors, n), p + p)
  {
    var once := Validate(env, st, fields).state;
    var p := PushedFor(env, TablesOf(st), fields, n);
    ValidateCollects(env, st, fields, true);
    ValidateCollects(env, once, fields, true);
    ValidateKeepsPushedFor(env, st, fields, true, fields, n);
    GrowTwice(Lookup(st.errors, n), p, p);
  }

  /** `getErrorsMessages(fieldName)`: one field's list, or the whole map. */
  datatype ErrorsReport = FieldList(list: Option<seq<string>>) | AllLists(errors: Obj<seq<string>>)

  /** A truthy name selects that field's list (`undefined` when it has none); otherwise the map itself. */
  function GetErrorsMessages(st: State, fieldName: Option<string>): (r: ErrorsReport)
    ensures r.FieldList? <==> fieldName.Some? && fieldName.value != ""
    ensures r.FieldList? ==> (r.list.Some? <==> fieldName.value in st.errors.keys)
    ensures r.FieldList? && r.list.Some? ==> r.list.value == st.errors.values[fieldName.value]
    ensures r.AllLists? ==> r.errors == st.errors
  {
    if fieldName.Some? && fieldName.value != "" then FieldList(Lookup(st.errors, fieldName.value))
    else AllLists(st.errors)
  }

  /**
   * `addMethod(name, method, message)`: register the method, make `message`
   * (or the generic fallback when it is falsy) the default for `name`, and
   * rebuild the message table. The call returns nothing and cannot throw.
   */
  function AddMethod(env: Env, st: State, fields: seq<Field>, name: string, fn: Param, message: string): (r: State)
    ensures r.methods == Register(st.methods, name, fn)
    ensures r.defaultMessages == st.defaultMessages[name := OrDefault(message, DefaultErrorMessage)]
    ensures r.validations == st.validations && r.errors == st.errors && r.valid == st.valid
    ensures forall n :: n in r.messages <==> NamedIn(fields, n)
    ensures forall n | n in r.messages ::
      Ok(r.messages[n]) == FieldMessages(Snake, env, r.defaultMessages, DefaultErrorMessage,
                                         st.validations.rules, st.validations.custom, n)
  {
    var defaults := st.defaultMessages[name := OrDefault(message, DefaultErrorMessage)];
    st.(methods := Register(st.methods, name, fn), defaultMessages := defaults,
        messages := Exchange(env, defaults, st.validations, fields))
  }

  /**
   * After `addMethod(name, fn, message)`, a field whose rules give `name` a
   * truthy parameter and no custom message stores `message` as written.
   */
  lemma AddMethodStoresMessage(env: Env, st: State, fields: seq<Field>, name: string, fn: Param, message: string, f: Field)
    requires NamedIn(fields, f.name)
    requires ActiveRule(st.validations.rules, f.name, name) && !HasCustom(st.validations.custom, f.name, name)
    requires message != ""
    ensures var after := AddMethod(env, st, fields, name, fn, message);
      f.name in after.messages && name in after.messages[f.name] && after.messages[f.name][name] == message
  {
    var defaults := st.defaultMessages[name := message];
    var m := Exchange(env, defaults, st.validations, fields);
    assert AddMethod(env, st, fields, name, fn, message).messages == m;
    assert Ok(m[f.name]) == FieldMessages(Snake, env, defaults, DefaultErrorMessage, st.validations.rules, st.validations.custom, f.name);
    assert DefaultTemplate(defaults, DefaultErrorMessage, name) == message;
  }

  /**
   * `addFieldErrorMessage` fills the stored template only when it shows it:
   * a failed `min: n` under the default template reads with the digits of `n`.
   */
  lemma MinMessageShown(env: Env, n: nat)
    ensures ReplaceMessageParams(env, DefaultMessages["min"], Num(n)) ==
      "Fill this field with minimun of " + DecimalDigits(n) + " characters."
  {
    var a := "Fill this field with minimun of ";
    var b := " characters.";
    assert DefaultMessages["min"] == a + "{0}" + b;
    forall i: nat | i <= |a|
      ensures !OccursAt(a, "{0}", i)
    {
      if i + 3 <= |a| {
        assert a[i..i + 3][0] == a[i] != '{';
      }
    }
    NumberParamFills(env, a, b, n);
  }
}

=== FILE: host.dfy ===
/**
 * What the page and the user's own code supply to the validator. Fields are
 * records read from the cached element list; DOM queries and user-written
 * functions are parameters of the model rather than code it can see.
 */
module Host {
  import opened JsValues

  /**
   * How formValidator.js classifies an element in `required`: a `<select>`
   * (by node name), an input whose `type` matches /radio|checkbox/, or any
   * other control.
   */
  datatype Control = TextControl | SelectControl | ChoiceControl

  /** A form control as the validator reads it: `name`, current `value`, kind. */
  datatype Field = Field(name: string, value: string, control: Control)

  /** `form.querySelector` or `document.querySelector`. */
  datatype Scope = InForm | InDocument

  /** The outcome of a selector query: an element, `null`, or a SyntaxError for a malformed selector. */
  datatype Selection = Match(field: Field) | NoMatch | InvalidSelector

  /**
   * The environment of one validator instance.
   *  - select: the DOM's answer to a selector query in the given scope;
   *  - callRequired(source, element, value): a function given as the
   *    `required` parameter, called as `param.call(this, element, value)`;
   *  - callMethod(source, value, element, param): a predicate registered with
   *    `addMethod`, called as `method.call(this, value, element, param)`;
   *  - callReplacer(source, match, offset, subject): `String(f(...))` for a
   *    function parameter that `String.prototype.replace` calls in place of a
   *    replacement string.
   * The user functions are taken as total and free of side effects: each
   * answers with its result only, never throws and never touches the
   * validator.
   */
  datatype Env = Env(
    select: (Scope, string) -> Selection,
    callRequired: (string, Field, string) -> bool,
    callMethod: (string, string, Field, Param) -> bool,
    callReplacer: (string, string, nat, string) -> string)
}

=== FILE: js_objects.dfy ===
/**
 * Plain JavaScript objects used as dictionaries (rule tables, the error map).
 * An object is its own keys in insertion order plus the value of each key.
 * Assigning to an existing key keeps its position; deleting a key and
 * assigning it again moves it to the end. `for...in` visits array-index keys
 * ("0", "1", ...) first in ascending numeric order and then every other key
 * in insertion order (OrdinaryOwnPropertyKeys, section 10.1.11.1 of ECMA-262).
 */
module JsObjects {
  import opened JsValues

  predicate Distinct(ks: seq<string>)
  {
    forall i, j | 0 <= i < j < |ks| :: ks[i] != ks[j]
  }

  datatype Object<V> = Object(keys: seq<string>, values: map<string, V>)

  predicate WellFormed<V>(o: Object<V>)
  {
    && Distinct(o.keys)
    && (forall k | k in o.values :: k in o.keys)
    && (forall k | k in o.keys :: k in o.values)
  }

  type Obj<V> = o: Object<V> | WellFormed(o) witness Object([], map[])

  /** `o[k]`, with `None` for `undefined`. */
  function Lookup<V>(o: Obj<V>, k: string): (r: Option<V>)
    ensures r.Some? <==> k in o.keys
  {
    if k in o.values then Some(o.values[k]) else None
  }

  /** `o[k] = v`: an existing key keeps its place, a new key goes last. */
  function Put<V>(o: Obj<V>, k: string, v: V): (r: Obj<V>)
    ensures r.keys == if k in o.keys then o.keys else o.keys + [k]
    ensures Lookup(r, k) == Some(v)
    ensures forall k' | k' != k :: Lookup(r, k') == Lookup(o, k')
  {
    if k in o.values then Object(o.keys, o.values[k := v])
    else Object(o.keys + [k], o.values[k := v])
  }

  /** `delete o[k]`: the other keys keep their order. */
  function Delete<V>(o: Obj<V>, k: string): (r: Obj<V>)
    ensures k !in r.keys
    ensures forall k' | k' != k :: Lookup(r, k') == Lookup(o, k')
    ensures k !in o.keys ==> r == o
  {
    Object(RemoveKey(o.keys, k), o.values - {k})
  }

  function RemoveKey(ks: seq<string>, k: string): (r: seq<string>)
    ensures forall x :: x in r <==> x in ks && x != k
    ensures Distinct(ks) ==> Distinct(r)
    ensures k !in ks ==> r == ks
  {
    if |ks| == 0 then []
    else if ks[0] == k then RemoveKey(ks[1..], k)
    else
      var rest := RemoveKey(ks[1..], k);
      assert Distinct(ks) ==> ks[0] !in ks[1..] && ks[0] !in rest;
      assert ks == [ks[0]] + ks[1..];
      [ks[0]] + rest
  }

  /** Deleting a key that was just added at the end gives back the keys before it. */
  lemma {:induction false} RemoveAppendedKey(ks: seq<string>, k: string)
    requires k !in ks
    ensures RemoveKey(ks + [k], k) == ks
  {
    if |ks| == 0 {
      assert RemoveKey([k], k) == RemoveKey([k][1..], k);
    } else {
      var c := ks + [k];
      assert c[0] == ks[0] && c[1..] == ks[1..] + [k];
      RemoveAppendedKey(ks[1..], k);
      assert ks == [ks[0]] + ks[1..];
    }
  }

  /** An assignment made right after a delete lands at the end of the object. */
  lemma DeleteThenPutMovesToEnd<V>(o: Obj<V>, k: string, v: V)
    ensures Put(Delete(o, k), k, v).keys == RemoveKey(o.keys, k) + [k]
  {
  }

  /** The numeric value of `k` when it is an array index: a canonical decimal numeral below 2^32 - 1. */
  function ArrayIndex(k: string): Option<nat>
  {
    if |k| == 0 || !AllDigits(k) || (|k| > 1 && k[0] == '0') then None
    else if DigitsValue(k) < 0xFFFF_FFFF then Some(DigitsValue(k))
    else None
  }

  predicate IsIndexKey(k: string)
  {
    ArrayIndex(k).Some?
  }

  function Rank(k: string): nat
  {
    match ArrayIndex(k)
    case Some(n) => n
    case None => 0
  }

  predicate SortedByRank(ks: seq<string>)
  {
    forall i, j | 0 <= i < j < |ks| :: Rank(ks[i]) <= Rank(ks[j])
  }

  function InsertByRank(k: string, ks: seq<string>): (r: seq<string>)
    ensures multiset(r) == multiset(ks) + multiset{k}
    ensures forall x :: x in r <==> x == k || x in ks
  {
    if |ks| == 0 then [k]
    else if Rank(k) <= Rank(ks[0]) then [k] + ks
    else
      assert ks == [ks[0]] + ks[1..];
      [ks[0]] + InsertByRank(k, ks[1..])
  }

  lemma {:induction false} InsertKeepsSorted(k: string, ks: seq<string>)
    requires SortedByRank(ks)
    ensures SortedByRank(InsertByRank(k, ks))
  {
    if |ks| > 0 && Rank(k) > Rank(ks[0]) {
      InsertKeepsSorted(k, ks[1..]);
      var rest := InsertByRank(k, ks[1..]);
      forall x | x in rest
        ensures Rank(ks[0]) <= Rank(x)
      {
        if x != k {
          var j :| 0 <= j < |ks[1..]| && ks[1..][j] == x;
          assert ks[j + 1] == x;
        }
      }
      var r := [ks[0]] + rest;
      forall i, j | 0 <= i < j < |r|
        ensures Rank(r[i]) <= Rank(r[j])
      {
        if i > 0 {
          assert r[i] == rest[i - 1] && r[j] == rest[j - 1];
        } else {
          assert r[j] == rest[j - 1] && rest[j - 1] in rest;
        }
      }
    }
  }

  function IndexKeysOf(ks: seq<string>): (r: seq<string>)
    ensures forall x :: x in r <==> x in ks && IsIndexKey(x)
  {
    if |ks| == 0 then []
    else (if IsIndexKey(ks[0]) then [ks[0]] else []) + IndexKeysOf(ks[1..])
  }

  /** The keys of `ks` that are array indices, in ascending index order. */
  function SortedIndexKeys(ks: seq<string>): (r: seq<string>)
    ensures multiset(r) == multiset(IndexKeysOf(ks))
    ensures SortedByRank(r)
  {
    if |ks| == 0 then []
    else
      var rest := SortedIndexKeys(ks[1..]);
      assert IndexKeysOf(ks) == (if IsIndexKey(ks[0]) then [ks[0]] else []) + IndexKeysOf(ks[1..]);
      if IsIndexKey(ks[0]) then InsertKeepsSorted(ks[0], rest); InsertByRank(ks[0], rest) else rest
  }

  /** The keys of `ks` that are not array indices, in their original order. */
  function PlainKeysOf(ks: seq<string>): (r: seq<string>)
    ensures forall x :: x in r <==> x in ks && !IsIndexKey(x)
    ensures (forall i | 0 <= i < |ks| :: !IsIndexKey(ks[i])) ==> r == ks
  {
    if |ks| == 0 then []
    else (if IsIndexKey(ks[0]) then [] else [ks[0]]) + PlainKeysOf(ks[1..])
  }

  lemma {:induction false} SplitKeys(ks: seq<string>)
    ensures multiset(ks) == multiset(IndexKeysOf(ks)) + multiset(PlainKeysOf(ks))
  {
    if |ks| > 0 {
      SplitKeys(ks[1..]);
      assert ks == [ks[0]] + ks[1..];
    }
  }

  lemma {:induction false} DistinctFromCounts(ks: seq<string>)
    requires forall k :: multiset(ks)[k] <= 1
    ensures Distinct(ks)
  {
    forall i, j | 0 <= i < j < |ks|
      ensures ks[i] != ks[j]
    {
      assert ks == ks[..i] + [ks[i]] + ks[i + 1..j] + [ks[j]] + ks[j + 1..];
      assert multiset(ks)[ks[i]] >= multiset([ks[i]] + ks[i + 1..j] + [ks[j]])[ks[i]];
    }
  }

  lemma {:induction false} CountsFromDistinct(ks: seq<string>)
    requires Distinct(ks)
    ensures forall k :: multiset(ks)[k] <= 1
  {
    if |ks| > 0 {
      CountsFromDistinct(ks[1..]);
      assert ks == [ks[0]] + ks[1..];
      assert ks[0] !in ks[1..];
    }
  }

  /**
   * The order in which `for (var k in o)` visits the keys of `o`: every own
   * key exactly once, array indices first in ascending order, then the other
   * keys in insertion order.
   */
  function Enumerate<V>(o: Obj<V>): (r: seq<string>)
    ensures Distinct(r) && |r| == |o.keys|
    ensures forall k :: k in r <==> k in o.keys
    ensures forall i, j | 0 <= i < j < |r| && IsIndexKey(r[j]) :: IsIndexKey(r[i]) && Rank(r[i]) <= Rank(r[j])
    ensures (forall i | 0 <= i < |o.keys| :: !IsIndexKey(o.keys[i])) ==> r == o.keys
    ensures PlainKeysOf(r) == PlainKeysOf(o.keys)
  {
    EnumerationIsPermutation(o.keys);
    EnumerationKeepsPlainOrder(o.keys);
    SortedIndexKeys(o.keys) + PlainKeysOf(o.keys)
  }

  /** Leaving out the index keys, the enumeration lists the keys in their insertion order. */
  lemma EnumerationKeepsPlainOrder(ks: seq<string>)
    ensures PlainKeysOf(SortedIndexKeys(ks) + PlainKeysOf(ks)) == PlainKeysOf(ks)
  {
    var a, b := SortedIndexKeys(ks), PlainKeysOf(ks);
    PlainKeysOfAppend(a, b);
    SortedKeysAreIndices(ks);
    NoPlainKeys(a);
    PlainKeysStable(ks);
  }

  lemma SortedKeysAreIndices(ks: seq<string>)
    ensures forall i | 0 <= i < |SortedIndexKeys(ks)| :: IsIndexKey(SortedIndexKeys(ks)[i])
  {
    var a := SortedIndexKeys(ks);
    forall i | 0 <= i < |a|
      ensures IsIndexKey(a[i])
    {
      assert a[i] in multiset(a);
      assert a[i] in IndexKeysOf(ks);
    }
  }

  lemma PlainKeysStable(ks: seq<string>)
    ensures PlainKeysOf(PlainKeysOf(ks)) == PlainKeysOf(ks)
  {
    var b := PlainKeysOf(ks);
    assert forall i | 0 <= i < |b| :: b[i] in b;
  }

  lemma NoPlainKeys(a: seq<string>)
    requires forall i | 0 <= i < |a| :: IsIndexKey(a[i])
    ensures PlainKeysOf(a) == []
  {
  }

  lemma PlainKeysOfCons(a: seq<string>, b: seq<string>)
    requires |a| > 0
    ensures var head := if IsIndexKey(a[0]) then [] else [a[0]];
      && PlainKeysOf(a + b) == head + PlainKeysOf(a[1..] + b)
      && PlainKeysOf(a) == head + PlainKeysOf(a[1..])
  {
    var c := a + b;
    assert c[0] == a[0] && c[1..] == a[1..] + b;
  }

  lemma JoinAssociates<T>(h: seq<T>, p: seq<T>, q: seq<T>)
    ensures h + (p + q) == (h + p) + q
  {
  }

  lemma {:induction false} PlainKeysOfAppend(a: seq<string>, b: seq<string>)
    ensures PlainKeysOf(a + b) == PlainKeysOf(a) + PlainKeysOf(b)
  {
    if |a| > 0 {
      PlainKeysOfAppend(a[1..], b);
      PlainKeysOfCons(a, b);
      var head := if IsIndexKey(a[0]) then [] else [a[0]];
      JoinAssociates(head, PlainKeysOf(a[1..]), PlainKeysOf(b));
    } else {
      assert a + b == b;
    }
  }

  lemma EnumerationIsPermutation(ks: seq<string>)
    requires Distinct(ks)
    ensures var r := SortedIndexKeys(ks) + PlainKeysOf(ks);
      && Distinct(r)
      && |r| == |ks|
      && (forall k :: k in r <==> k in ks)
      && (forall i, j | 0 <= i < j < |r| && IsIndexKey(r[j]) :: IsIndexKey(r[i]) && Rank(r[i]) <= Rank(r[j]))
      && ((forall i | 0 <= i < |ks| :: !IsIndexKey(ks[i])) ==> r == ks)
  {
    var a, b := SortedIndexKeys(ks), PlainKeysOf(ks);
    var r := a + b;
    SplitKeys(ks);
    assert multiset(r) == multiset(a) + multiset(b) == multiset(ks);
    CountsFromDistinct(ks);
    DistinctFromCounts(r);
    assert |r| == |multiset(r)| == |multiset(ks)| == |ks|;
    forall k
      ensures k in r <==> k in ks
    {
      assert k in r <==> k in multiset(r);
      assert k in ks <==> k in multiset(ks);
    }
    forall i | 0 <= i < |a|
      ensures IsIndexKey(a[i])
    {
      assert a[i] in multiset(a);
      assert a[i] in IndexKeysOf(ks);
    }
    forall i, j | 0 <= i < j < |r| && IsIndexKey(r[j])
      ensures IsIndexKey(r[i]) && Rank(r[i]) <= Rank(r[j])
    {
      assert r[j] !in b;
      assert r[i] == a[i] && r[j] == a[j];
    }
    if forall i | 0 <= i < |ks| :: !IsIndexKey(ks[i]) {
      assert multiset(a) == multiset{};
      assert r == b;
    }
  }
}

=== FILE: js_strings.dfy ===
/**
 * `String.prototype.replace` with a string pattern: only the first occurrence
 * of the pattern is replaced, and the replacement string is read as a
 * replacement template in which `$$`, `$&`, `` $` `` and `$'` are special
 * (a string pattern has no capture groups, so `$1` or `$<` stay literal).
 */
module JsStrings {
  import opened JsValues

  predicate OccursAt(s: string, pat: string, i: nat)
  {
    i + |pat| <= |s| && s[i..i + |pat|] == pat
  }

  predicate Contains(s: string, pat: string)
  {
    exists i: nat | i <= |s| :: OccursAt(s, pat, i)
  }

  /** The first position at or after `k` where `pat` occurs in `s`. */
  function IndexFrom(s: string, pat: string, k: nat): (r: Option<nat>)
    requires k <= |s|
    ensures r.Some? ==> k <= r.value && OccursAt(s, pat, r.value)
    ensures r.Some? ==> forall j: nat | k <= j < r.value :: !OccursAt(s, pat, j)
    ensures r.None? ==> forall j: nat | k <= j <= |s| :: !OccursAt(s, pat, j)
    decreases |s| - k
  {
    if k + |pat| > |s| then None
    else if s[k..k + |pat|] == pat then Some(k)
    else IndexFrom(s, pat, k + 1)
  }

  /** `s.indexOf(pat)`, with `None` for -1. */
  function IndexOf(s: string, pat: string): (r: Option<nat>)
    ensures r.Some? <==> Contains(s, pat)
    ensures r.Some? ==> OccursAt(s, pat, r.value) && forall j: nat | j < r.value :: !OccursAt(s, pat, j)
  {
    IndexFrom(s, pat, 0)
  }

  /**
   * The replacement text for one match (GetSubstitution of ECMA-262 with no
   * captures): `$$` is `$`, `$&` the matched text, `` $` `` the text before the
   * match, `$'` the text after it; every other character is copied.
   */
  function Expand(template: string, matched: string, before: string, after: string): string
  {
    if |template| == 0 then ""
    else if template[0] == '$' && |template| >= 2 then
      var c := template[1];
      if c == '$' then "$" + Expand(template[2..], matched, before, after)
      else if c == '&' then matched + Expand(template[2..], matched, before, after)
      else if c == '`' then before + Expand(template[2..], matched, before, after)
      else if c == '\'' then after + Expand(template[2..], matched, before, after)
      else "$" + Expand(template[1..], matched, before, after)
    else [template[0]] + Expand(template[1..], matched, before, after)
  }

  predicate NoDollar(s: string)
  {
    forall i | 0 <= i < |s| :: s[i] != '$'
  }

  /** A template without `$` is its own expansion. */
  lemma {:induction false} ExpandLiteral(template: string, matched: string, before: string, after: string)
    requires NoDollar(template)
    ensures Expand(template, matched, before, after) == template
  {
    if |template| > 0 {
      assert template[0] != '$';
      ExpandLiteral(template[1..], matched, before, after);
      assert [template[0]] + template[1..] == template;
    }
  }

  /** `s.replace(pat, replacement)` for a string pattern and a string replacement. */
  function Replace(s: string, pat: string, replacement: string): (r: string)
    ensures !Contains(s, pat) ==> r == s
  {
    match IndexOf(s, pat)
    case None => s
    case Some(i) => s[..i] + Expand(replacement, pat, s[..i], s[i + |pat|..]) + s[i + |pat|..]
  }

  /**
   * The `{0}` placeholder cannot overlap a later copy of itself: an occurrence
   * straddling the end of `a` would need `{` where `0` or `}` stands.
   */
  lemma FirstPlaceholderAfter(a: string, b: string)
    requires !Contains(a, "{0}")
    ensures IndexOf(a + "{0}" + b, "{0}") == Some(|a|)
  {
    var s := a + "{0}" + b;
    assert OccursAt(s, "{0}", |a|);
    forall j: nat | j < |a|
      ensures !OccursAt(s, "{0}", j)
    {
      if j + 3 <= |a| {
        assert a[j..j + 3] == s[j..j + 3];
        assert !OccursAt(a, "{0}", j);
      } else {
        assert s[|a|] == '{';
        assert s[j..j + 3][|a| - j] == s[|a|];
      }
    }
  }

  /**
   * Replacing a placeholder is the inverse of inserting it: the literal text
   * takes the place of the first `{0}`, and everything after it, including
   * any further `{0}`, is left as it was.
   */
  lemma ReplaceFirstPlaceholder(a: string, b: string, text: string)
    requires !Contains(a, "{0}")
    requires NoDollar(text)
    ensures Replace(a + "{0}" + b, "{0}", text) == a + text + b
  {
    var s := a + "{0}" + b;
    FirstPlaceholderAfter(a, b);
    assert s[..|a|] == a;
    assert s[|a| + 3..] == b;
    ExpandLiteral(text, "{0}", a, b);
  }

  /**
   * The replacement is a template, not literal text: a `$'` inside it (as in
   * the attribute selector `input[name$='pass']`) expands to the text after
   * the placeholder instead of standing for itself.
   */
  lemma DollarQuoteExpandsToSuffix(a: string, b: string, x: string, y: string)
    requires !Contains(a, "{0}")
    requires NoDollar(x) && NoDollar(y)
    ensures Replace(a + "{0}" + b, "{0}", x + "$'" + y) == a + x + b + y + b
  {
    var s := a + "{0}" + b;
    FirstPlaceholderAfter(a, b);
    assert s[..|a|] == a && s[|a| + 3..] == b;
    assert x + "$'" + y == x + ("$'" + y);
    ExpandLiteralPrefix(x, "$'" + y, "{0}", a, b);
    assert ("$'" + y)[2..] == y;
    ExpandLiteral(y, "{0}", a, b);
  }

  /** A `$`-free prefix of a template is copied unchanged. */
  lemma {:induction false} ExpandLiteralPrefix(x: string, y: string, matched: string, before: string, after: string)
    requires NoDollar(x)
    ensures Expand(x + y, matched, before, after) == x + Expand(y, matched, before, after)
  {
    if |x| > 0 {
      assert x[0] != '$';
      var t := x + y;
      assert t[0] == x[0] && t[1..] == x[1..] + y;
      ExpandLiteralPrefix(x[1..], y, matched, before, after);
      calc {
        Expand(t, matched, before, after);
        [x[0]] + Expand(x[1..] + y, matched, before, after);
        [x[0]] + (x[1..] + Expand(y, matched, before, after));
        ([x[0]] + x[1..]) + Expand(y, matched, before, after);
        { assert [x[0]] + x[1..] == x; }
        x + Expand(y, matched, before, after);
      }
    } else {
      assert x + y == y;
    }
  }
}

=== FILE: js_values.dfy ===
/**
 * The slice of JavaScript's value semantics the form validator relies on:
 * the values a rule table can hold, truthiness, `String(v)`, `Number(v)`,
 * the UTF-16 `length` of a string and the `\s` character class.
 */
module JsValues {

  datatype Option<+T> = None | Some(value: T)

  /** The two exceptions the validator can raise. */
  datatype JsError = TypeError | SyntaxError

  /** A JavaScript call that either returns a value or throws. */
  datatype Result<+T> = Ok(value: T) | Throw(error: JsError)

  /** What a call that returns nothing returns. */
  datatype Unit = Unit

  /**
   * A rule parameter, classified by its JavaScript type. Numbers are the
   * non-negative integers rule tables use (`min: 8`); a function is identified
   * by its source text, which is also what `String(f)` yields.
   */
  datatype Param =
    | Undefined
    | Bool(b: bool)
    | Num(n: nat)
    | Str(s: string)
    | List(items: seq<string>)
    | Func(source: string)

  /** `if (p)`: false, 0, "" and undefined are falsy; arrays and functions are truthy. */
  predicate Truthy(p: Param)
  {
    match p
    case Undefined => false
    case Bool(b) => b
    case Num(n) => n != 0
    case Str(s) => s != ""
    case List(_) => true
    case Func(_) => true
  }

  predicate IsDigit(c: char)
  {
    '0' <= c <= '9'
  }

  predicate AllDigits(s: string)
  {
    forall i | 0 <= i < |s| :: IsDigit(s[i])
  }

  function DigitChar(d: nat): (c: char)
    requires d < 10
    ensures IsDigit(c)
  {
    ('0' as int + d) as char
  }

  /** The value of a string of decimal digits, most significant first. */
  function DigitsValue(s: string): nat
    requires AllDigits(s)
  {
    if |s| == 0 then 0
    else DigitsValue(s[..|s| - 1]) * 10 + (s[|s| - 1] as int - '0' as int)
  }

  /** `String(n)` for a non-negative integer: its canonical decimal numeral. */
  function DecimalDigits(n: nat): (r: string)
    ensures |r| > 0 && AllDigits(r)
    ensures |r| > 1 ==> r[0] != '0'
  {
    if n < 10 then [DigitChar(n)]
    else DecimalDigits(n / 10) + [DigitChar(n % 10)]
  }

  /** Reading back a printed number gives the number. */
  lemma {:induction false} DecimalDigitsRoundTrip(n: nat)
    ensures DigitsValue(DecimalDigits(n)) == n
  {
    if n >= 10 {
      var s := DecimalDigits(n);
      assert s[..|s| - 1] == DecimalDigits(n / 10);
      DecimalDigitsRoundTrip(n / 10);
    }
  }

  /** `items.join(sep)` for an array of strings. */
  function Join(items: seq<string>, sep: string): (r: string)
    ensures |items| == 1 ==> r == items[0]
    ensures sep == "" ==> |r| == SumLengths(items)
  {
    if |items| == 0 then ""
    else if |items| == 1 then items[0]
    else items[0] + sep + Join(items[1..], sep)
  }

  function SumLengths(items: seq<string>): nat
  {
    if |items| == 0 then 0 else |items[0]| + SumLengths(items[1..])
  }

  /** `String(p)`. An array prints as its elements joined with ",". */
  function ToJsString(p: Param): string
  {
    match p
    case Undefined => "undefined"
    case Bool(b) => if b then "true" else "false"
    case Num(n) => DecimalDigits(n)
    case Str(s) => s
    case List(items) => Join(items, ",")
    case Func(source) => source
  }

  /** Number of UTF-16 code units a character occupies. */
  function CodeUnits(c: char): nat
  {
    if c as int > 0xFFFF then 2 else 1
  }

  /** `s.length`: JavaScript counts UTF-16 code units, so astral characters count twice. */
  function JsLength(s: string): (n: nat)
    ensures |s| <= n <= 2 * |s|
  {
    if |s| == 0 then 0 else CodeUnits(s[0]) + JsLength(s[1..])
  }

  lemma JsLengthZero(s: string)
    ensures JsLength(s) == 0 <==> s == ""
  {
  }

  /** Membership in the regular-expression class `\s` (white space and line terminators). */
  predicate IsJsSpace(c: char)
  {
    var u := c as int;
    || u == 0x09 || u == 0x0A || u == 0x0B || u == 0x0C || u == 0x0D || u == 0x20
    || u == 0xA0 || u == 0x1680 || (0x2000 <= u <= 0x200A) || u == 0x2028 || u == 0x2029
    || u == 0x202F || u == 0x205F || u == 0x3000 || u == 0xFEFF
  }

  /** The `n` characters of `s` from position `i`. */
  function Piece(s: string, i: nat, n: nat): string
    requires i + n <= |s|
  {
    s[i..i + n]
  }

  /** `r` is what is left of `s` between a white-space prefix and a white-space suffix. */
  predicate StrippedOf(s: string, r: string)
  {
    exists i | 0 <= i && i + |r| <= |s| ::
      && r == Piece(s, i, |r|)
      && (forall k | 0 <= k < i :: IsJsSpace(s[k]))
      && (forall k | i + |r| <= k < |s| :: IsJsSpace(s[k]))
  }

  /**
   * Removes leading and trailing white space, as `Number(s)` does before
   * parsing: the result is the piece of `s` left between a white-space
   * prefix and a white-space suffix, and it neither starts nor ends with
   * white space itself.
   */
  function Trim(s: string): (r: string)
    ensures |r| <= |s|
    ensures |r| > 0 ==> !IsJsSpace(r[0]) && !IsJsSpace(r[|r| - 1])
    ensures |s| > 0 && !IsJsSpace(s[0]) && !IsJsSpace(s[|s| - 1]) ==> r == s
    ensures StrippedOf(s, r)
  {
    var t := TrimStart(s);
    var r := TrimEnd(t);
    StrippedPiece(s, t, r);
    r
  }

  /** A prefix, before white space, of a suffix, after white space, is a piece of `s` between white space. */
  lemma StrippedPiece(s: string, t: string, r: string)
    requires |t| <= |s| && t == s[|s| - |t|..] && forall k | 0 <= k < |s| - |t| :: IsJsSpace(s[k])
    requires |r| <= |t| && r == t[..|r|] && forall k | |r| <= k < |t| :: IsJsSpace(t[k])
    ensures StrippedOf(s, r)
  {
    var i := |s| - |t|;
    assert r == Piece(s, i, |r|);
    forall k | i + |r| <= k < |s|
      ensures IsJsSpace(s[k])
    {
      assert s[k] == t[k - i];
    }
  }

  /** Removes the leading white space: the result is a suffix of `s` after white space only. */
  function TrimStart(s: string): (r: string)
    ensures |r| <= |s|
    ensures |r| > 0 ==> !IsJsSpace(r[0]) && r[|r| - 1] == s[|s| - 1]
    ensures |s| > 0 && !IsJsSpace(s[0]) ==> r == s
    ensures r == s[|s| - |r|..]
    ensures forall k | 0 <= k < |s| - |r| :: IsJsSpace(s[k])
  {
    if |s| > 0 && IsJsSpace(s[0]) then
      var r := TrimStart(s[1..]);
      assert forall k | 1 <= k < |s| - |r| :: s[k] == s[1..][k - 1];
      r
    else s
  }

  /** Removes the trailing white space: the result is a prefix of `s` before white space only. */
  function TrimEnd(s: string): (r: string)
    ensures |r| <= |s|
    ensures |r| > 0 ==> !IsJsSpace(r[|r| - 1]) && r[0] == s[0]
    ensures |s| > 0 && !IsJsSpace(s[|s| - 1]) ==> r == s
    ensures r == s[..|r|]
    ensures forall k | |r| <= k < |s| :: IsJsSpace(s[k])
  {
    if |s| > 0 && IsJsSpace(s[|s| - 1]) then
      var r := TrimEnd(s[..|s| - 1]);
      assert forall k | |r| <= k < |s| - 1 :: s[k] == s[..|s| - 1][k];
      r
    else s
  }

  /**
   * `Number(s)` for the numerals a rule table can reasonably hold: surrounding
   * white space is ignored, the empty string is 0, an optionally signed run of
   * decimal digits is its value, and anything else is NaN (`None`).
   */
  function StringToNumber(s: string): (r: Option<int>)
  {
    var t := Trim(s);
    if t == "" then Some(0)
    else if t[0] == '-' && |t| > 1 && AllDigits(t[1..]) then Some(0 - DigitsValue(t[1..]) as int)
    else if t[0] == '+' && |t| > 1 && AllDigits(t[1..]) then Some(DigitsValue(t[1..]))
    else if AllDigits(t) then Some(DigitsValue(t))
    else None
  }

  /** `Number(p)` as used by the comparisons `value.length >= p`; `None` is NaN. */
  function ToNumber(p: Param): Option<int>
  {
    match p
    case Undefined => None
    case Bool(b) => Some(if b then 1 else 0)
    case Num(n) => Some(n)
    case Str(s) => StringToNumber(s)
    case List(items) => StringToNumber(Join(items, ","))
    case Func(_) => None
  }

  /** A number written into a rule as a string compares exactly like the number itself. */
  lemma NumeralParamAgreesWithNumber(n: nat)
    ensures ToNumber(Str(ToJsString(Num(n)))) == Some(n)
  {
    var s := DecimalDigits(n);
    assert !IsJsSpace(s[0]) && !IsJsSpace(s[|s| - 1]);
    assert Trim(s) == s;
    DecimalDigitsRoundTrip(n);
  }

  /** `given || fallback` on strings: the given string when it is truthy, the fallback otherwise. */
  function OrDefault(given: string, fallback: string): (r: string)
    ensures r == if Truthy(Str(given)) then given else fallback
  {
    if given != "" then given else fallback
  }
}

=== FILE: messages.dfy ===
/**
 * Message resolution: `replaceMessageParams` and `exchangeMessages`, which
 * builds the per-field, per-rule message table with the precedence custom
 * message, then the global default for the rule, then the generic fallback.
 * formValidator.js fills the `{0}` placeholder while building the table;
 * form_validator.js stores the templates as they are.
 */
module Messages {
  import opened JsValues
  import opened JsStrings
  import opened JsObjects
  import opened Host
  import opened Rules

  /** The two revisions: assets/formValidator.js and assets/form_validator.js. */
  datatype Revision = Camel | Snake

  /** `_messages`: field name to rule name to message. */
  type MessageTable = map<string, map<string, string>>

  /** `validations.messages`: custom messages per field, in declaration order. */
  type CustomMessages = map<string, Obj<string>>

  /** What `message.replace("{0}", params)` inserts for a non-function parameter: arrays are joined with "". */
  function ParamText(p: Param): string
  {
    match p
    case List(items) => Join(items, "")
    case _ => ToJsString(p)
  }

  /**
   * `replaceMessageParams(message, params)`: the first `{0}` is replaced. A
   * function parameter is called with the match, its offset and the message,
   * and its result is inserted literally; any other parameter is converted to
   * text and read as a replacement template.
   */
  function ReplaceMessageParams(env: Env, message: string, p: Param): string
  {
    match p
    case Func(source) =>
      (match IndexOf(message, "{0}")
       case None => message
       case Some(i) => message[..i] + env.callReplacer(source, "{0}", i, message) + message[i + 3..])
    case _ => Replace(message, "{0}", ParamText(p))
  }

  /** A message without `{0}` comes back unchanged, whatever the parameter. */
  lemma NoPlaceholderUnchanged(env: Env, message: string, p: Param)
    requires !Contains(message, "{0}")
    ensures ReplaceMessageParams(env, message, p) == message
  {
  }

  /**
   * Only the first `{0}` is filled: with the parameter's text when it holds
   * no `$`, and with the function's result for a function parameter. The rest
   * of the message, later placeholders included, is kept.
   */
  lemma FillsFirstPlaceholder(env: Env, a: string, b: string, p: Param)
    requires !Contains(a, "{0}")
    requires !p.Func? ==> NoDollar(ParamText(p))
    ensures ReplaceMessageParams(env, a + "{0}" + b, p) ==
      a + (if p.Func? then env.callReplacer(p.source, "{0}", |a|, a + "{0}" + b) else ParamText(p)) + b
  {
    FirstPlaceholderAfter(a, b);
    var s := a + "{0}" + b;
    assert s[..|a|] == a && s[|a| + 3..] == b;
    if !p.Func? {
      ReplaceFirstPlaceholder(a, b, ParamText(p));
    }
  }

  /** A list parameter is inserted as its elements run together: `[3, 8]` fills `{0}` with "38". */
  lemma ListParamJoinedWithoutSeparator(env: Env, a: string, b: string, items: seq<string>)
    requires !Contains(a, "{0}")
    requires NoDollar(Join(items, ""))
    ensures ReplaceMessageParams(env, a + "{0}" + b, List(items)) == a + Join(items, "") + b
  {
    FillsFirstPlaceholder(env, a, b, List(items));
  }

  lemma {:induction false} DigitsHaveNoDollar(n: nat)
    ensures NoDollar(DecimalDigits(n))
  {
    var s := DecimalDigits(n);
    forall i | 0 <= i < |s|
      ensures s[i] != '$'
    {
      assert IsDigit(s[i]);
    }
  }

  /** A numeric parameter always lands verbatim: `min: 8` turns "minimun of {0}" into "minimun of 8". */
  lemma NumberParamFills(env: Env, a: string, b: string, n: nat)
    requires !Contains(a, "{0}")
    ensures ReplaceMessageParams(env, a + "{0}" + b, Num(n)) == a + DecimalDigits(n) + b
  {
    DigitsHaveNoDollar(n);
    FillsFirstPlaceholder(env, a, b, Num(n));
  }

  /** `defaultMessages[rule] ? defaultMessages[rule] : validator._defaultErrorMessage`. */
  function DefaultTemplate(defaults: map<string, string>, fallback: string, rule: string): string
  {
    if rule in defaults && defaults[rule] != "" then defaults[rule] else fallback
  }

  /** The stored form of a message: filled in by formValidator.js, a raw template in form_validator.js. */
  function Stored(rev: Revision, env: Env, template: string, p: Param): string
  {
    if rev == Camel then ReplaceMessageParams(env, template, p) else template
  }

  /** `customMessages[fieldName][rule]`, "" when absent. */
  function CustomText(cm: Obj<string>, rule: string): string
  {
    match Lookup(cm, rule)
    case Some(t) => t
    case None => ""
  }

  /** A truthy custom message exists for this field and rule. */
  predicate HasCustom(custom: CustomMessages, name: string, rule: string)
  {
    name in custom && CustomText(custom[name], rule) != ""
  }

  /** `validations.rules[fieldName][rule]`, `undefined` for a field without rules. */
  function RuleParam(rules: RuleTable, name: string, rule: string): Param
  {
    if name in rules then ParamOf(rules[name], rule) else Undefined
  }

  /** A rule with a truthy parameter: those get a default message. */
  predicate ActiveRule(rules: RuleTable, name: string, rule: string)
  {
    name in rules && rule in rules[name].keys && Truthy(ParamOf(rules[name], rule))
  }

  /** The first loop of `exchangeMessages`: a default message for each rule with a truthy parameter. */
  function DefaultEntries(rev: Revision, env: Env, defaults: map<string, string>, fallback: string,
                          rs: RuleSet, ks: seq<string>, acc: map<string, string>): (m: map<string, string>)
    ensures forall r :: r in m <==> r in acc || (r in ks && Truthy(ParamOf(rs, r)))
    ensures forall r | r in m ::
      m[r] == if r in ks && Truthy(ParamOf(rs, r))
              then Stored(rev, env, DefaultTemplate(defaults, fallback, r), ParamOf(rs, r))
              else acc[r]
  {
    if |ks| == 0 then acc
    else
      var r := ks[0];
      var p := ParamOf(rs, r);
      var acc' := if Truthy(p) then acc[r := Stored(rev, env, DefaultTemplate(defaults, fallback, r), p)] else acc;
      DefaultEntries(rev, env, defaults, fallback, rs, ks[1..], acc')
  }

  /**
   * The second loop: each truthy custom message overrides. formValidator.js
   * reads `validations.rules[fieldName][rule]` to fill it in, which throws a
   * TypeError for a field that has no rules.
   */
  function CustomEntries(rev: Revision, env: Env, rules: RuleTable, name: string,
                         cm: Obj<string>, ks: seq<string>, acc: map<string, string>): (res: Result<map<string, string>>)
    ensures res.Throw? <==> rev == Camel && name !in rules && exists i | 0 <= i < |ks| :: CustomText(cm, ks[i]) != ""
    ensures res.Throw? ==> res.error == TypeError
    ensures res.Ok? ==> forall r :: r in res.value <==> r in acc || (r in ks && CustomText(cm, r) != "")
    ensures res.Ok? ==> forall r | r in res.value ::
      res.value[r] == if r in ks && CustomText(cm, r) != ""
                      then Stored(rev, env, CustomText(cm, r), RuleParam(rules, name, r))
                      else acc[r]
  {
    if |ks| == 0 then Ok(acc)
    else
      var r := ks[0];
      var t := CustomText(cm, r);
      if t == "" then
        var res := CustomEntries(rev, env, rules, name, cm, ks[1..], acc);
        assert forall i | 0 <= i < |ks[1..]| :: ks[1..][i] == ks[i + 1];
        res
      else if rev == Camel && name !in rules then Throw(TypeError)
      else CustomEntries(rev, env, rules, name, cm, ks[1..], acc[r := Stored(rev, env, t, RuleParam(rules, name, r))])
  }

  /**
   * The messages of one field. A custom message wins; otherwise a rule with a
   * truthy parameter gets the default for its name, or the fallback when there
   * is none; a rule with a falsy parameter and no custom message gets nothing.
   */
  function FieldMessages(rev: Revision, env: Env, defaults: map<string, string>, fallback: string,
                         rules: RuleTable, custom: CustomMessages, name: string): (res: Result<map<string, string>>)
    ensures res.Throw? <==> rev == Camel && name !in rules && exists r :: HasCustom(custom, name, r)
    ensures res.Ok? ==> forall r :: r in res.value <==> HasCustom(custom, name, r) || ActiveRule(rules, name, r)
    ensures res.Ok? ==> forall r | r in res.value ::
      res.value[r] == if HasCustom(custom, name, r)
                      then Stored(rev, env, CustomText(custom[name], r), RuleParam(rules, name, r))
                      else Stored(rev, env, DefaultTemplate(defaults, fallback, r), RuleParam(rules, name, r))
  {
    var base := BaseEntries(rev, env, defaults, fallback, rules, name);
    if name !in custom then Ok(base)
    else
      var res := CustomEntries(rev, env, rules, name, custom[name], Enumerate(custom[name]), base);
      CustomEntriesCover(rev, env, rules, custom, name, base, res);
      res
  }

  /** The default entries of a field, before any custom message. */
  function BaseEntries(rev: Revision, env: Env, defaults: map<string, string>, fallback: string,
                       rules: RuleTable, name: string): (m: map<string, string>)
    ensures forall r :: r in m <==> ActiveRule(rules, name, r)
    ensures forall r | r in m :: m[r] == Stored(rev, env, DefaultTemplate(defaults, fallback, r), RuleParam(rules, name, r))
  {
    if name in rules then DefaultEntries(rev, env, defaults, fallback, rules[name], Enumerate(rules[name]), map[]) else map[]
  }

  lemma CustomEntriesCover(rev: Revision, env: Env, rules: RuleTable, custom: CustomMessages, name: string,
                           base: map<string, string>, res: Result<map<string, string>>)
    requires name in custom
    requires res == CustomEntries(rev, env, rules, name, custom[name], Enumerate(custom[name]), base)
    ensures res.Throw? <==> rev == Camel && name !in rules && exists r :: HasCustom(custom, name, r)
    ensures res.Ok? ==> forall r :: r in res.value <==> r in base || HasCustom(custom, name, r)
    ensures res.Ok? ==> forall r | r in res.value ::
      res.value[r] == if HasCustom(custom, name, r)
                      then Stored(rev, env, CustomText(custom[name], r), RuleParam(rules, name, r))
                      else base[r]
  {
    var cm := custom[name];
    CustomKeysEnumerated(cm);
    assert forall r :: HasCustom(custom, name, r) <==> CustomText(cm, r) != "";
  }

  /** A rule has a truthy custom message exactly when enumeration visits it with a non-empty text. */
  lemma CustomKeysEnumerated(cm: Obj<string>)
    ensures var ks := Enumerate(cm);
      && (forall r :: r in ks && CustomText(cm, r) != "" <==> CustomText(cm, r) != "")
      && ((exists i | 0 <= i < |ks| :: CustomText(cm, ks[i]) != "") <==> exists r :: CustomText(cm, r) != "")
  {
    var ks := Enumerate(cm);
    forall r | CustomText(cm, r) != ""
      ensures r in ks
    {
      assert r in cm.keys;
    }
    if r :| CustomText(cm, r) != "" {
      assert r in ks;
      var i :| 0 <= i < |ks| && ks[i] == r;
    }
  }

  /** Some field in `fields` has the name `n`. */
  predicate NamedIn(fields: seq<Field>, n: string)
  {
    exists i | 0 <= i < |fields| :: fields[i].name == n
  }

  /**
   * `exchangeMessages(defaultMessages, customMessages)`: `messages[fieldName]`
   * for every field, in field order; the first field whose messages throw
   * aborts the whole table.
   */
  function ExchangeMessages(rev: Revision, env: Env, defaults: map<string, string>, fallback: string,
                            rules: RuleTable, custom: CustomMessages, fields: seq<Field>): (res: Result<MessageTable>)
    ensures res.Ok? <==> forall i | 0 <= i < |fields| :: FieldMessages(rev, env, defaults, fallback, rules, custom, fields[i].name).Ok?
    ensures res.Ok? ==> forall n :: n in res.value <==> NamedIn(fields, n)
    ensures res.Ok? ==> forall n | n in res.value ::
      Ok(res.value[n]) == FieldMessages(rev, env, defaults, fallback, rules, custom, n)
  {
    var res := ExchangeInto(rev, env, defaults, fallback, rules, custom, fields, map[]);
    if res.Ok? then
      ExchangeIntoTable(rev, env, defaults, fallback, rules, custom, fields, map[]);
      res
    else
      res
  }

  function ExchangeInto(rev: Revision, env: Env, defaults: map<string, string>, fallback: string,
                        rules: RuleTable, custom: CustomMessages, fields: seq<Field>, acc: MessageTable): (res: Result<MessageTable>)
    ensures res.Ok? <==> forall i | 0 <= i < |fields| :: FieldMessages(rev, env, defaults, fallback, rules, custom, fields[i].name).Ok?
  {
    if |fields| == 0 then Ok(acc)
    else
      var n := fields[0].name;
      match FieldMessages(rev, env, defaults, fallback, rules, custom, n)
      case Throw(e) => Throw(e)
      case Ok(m) =>
        assert forall i | 0 <= i < |fields[1..]| :: fields[1..][i] == fields[i + 1];
        ExchangeInto(rev, env, defaults, fallback, rules, custom, fields[1..], acc[n := m])
  }

  lemma {:induction false} ExchangeIntoTable(rev: Revision, env: Env, defaults: map<string, string>, fallback: string,
                                             rules: RuleTable, custom: CustomMessages, fields: seq<Field>, acc: MessageTable)
    requires ExchangeInto(rev, env, defaults, fallback, rules, custom, fields, acc).Ok?
    ensures var t := ExchangeInto(rev, env, defaults, fallback, rules, custom, fields, acc).value;
      && (forall n :: n in t <==> n in acc || NamedIn(fields, n))
      && (forall n | n in t :: if NamedIn(fields, n)
                               then Ok(t[n]) == FieldMessages(rev, env, defaults, fallback, rules, custom, n)
                               else t[n] == acc[n])
  {
    if |fields| > 0 {
      var n := fields[0].name;
      var m := FieldMessages(rev, env, defaults, fallback, rules, custom, n).value;
      assert ExchangeInto(rev, env, defaults, fallback, rules, custom, fields, acc)
          == ExchangeInto(rev, env, defaults, fallback, rules, custom, fields[1..], acc[n := m]);
      ExchangeIntoTable(rev, env, defaults, fallback, rules, custom, fields[1..], acc[n := m]);
      forall x
        ensures NamedIn(fields, x) <==> x == n || NamedIn(fields[1..], x)
      {
        NamedInCons(fields, x);
      }
    }
  }

  /** A name occurs in a non-empty field list exactly when it is the first field's or occurs in the rest. */
  lemma NamedInCons(fields: seq<Field>, x: string)
    requires |fields| > 0
    ensures NamedIn(fields, x) <==> x == fields[0].name || NamedIn(fields[1..], x)
  {
    if NamedIn(fields, x) && x != fields[0].name {
      var i :| 0 <= i < |fields| && fields[i].name == x;
      assert fields[1..][i - 1].name == x;
    }
    if NamedIn(fields[1..], x) {
      var i :| 0 <= i < |fields[1..]| && fields[1..][i].name == x;
      assert fields[i + 1].name == x;
    }
  }
}

=== FILE: rules.dfy ===
/**
 * Rule tables and the built-in predicates both revisions share:
 * `normalizeRules`, `optional`, and the `email`, `min`, `max` and `equalTo`
 * entries of `_validations`. Each predicate returns the JavaScript value it
 * computes or the exception it raises.
 */
module Rules {
  import opened JsValues
  import opened JsObjects
  import opened Host
  import opened EmailPattern

  /** The rules of one field keyed by rule name, as in `{required: true, min: 8}`. */
  type RuleSet = Obj<Param>

  /** `validations.rules`: the rule set of each field name. */
  type RuleTable = map<string, RuleSet>

  /** `rules[rule]` read inside a loop over the rule names. */
  function ParamOf(rs: RuleSet, rule: string): Param
  {
    match Lookup(rs, rule)
    case Some(p) => p
    case None => Undefined
  }

  /** The keys of `ks` that are not in `gone`, in their original order. */
  function Without(ks: seq<string>, gone: set<string>): (r: seq<string>)
    ensures forall x :: x in r <==> x in ks && x !in gone
    ensures Distinct(ks) ==> Distinct(r)
  {
    if |ks| == 0 then []
    else
      var rest := Without(ks[1..], gone);
      assert Distinct(ks) ==> ks[0] !in ks[1..];
      (if ks[0] in gone then [] else [ks[0]]) + rest
  }

  lemma {:induction false} RemoveKeyIsWithout(ks: seq<string>, k: string)
    ensures RemoveKey(ks, k) == Without(ks, {k})
  {
    if |ks| > 0 {
      RemoveKeyIsWithout(ks[1..], k);
    }
  }

  lemma {:induction false} WithoutTwice(ks: seq<string>, a: set<string>, b: set<string>)
    ensures Without(Without(ks, a), b) == Without(ks, a + b)
  {
    if |ks| > 0 {
      WithoutTwice(ks[1..], a, b);
      if ks[0] !in a {
        var w := Without(ks, a);
        assert w == [ks[0]] + Without(ks[1..], a);
        assert w[0] == ks[0] && w[1..] == Without(ks[1..], a);
        assert Without(w, b) == (if ks[0] in b then [] else [ks[0]]) + Without(w[1..], b);
      } else {
        assert Without(ks, a) == Without(ks[1..], a);
      }
    }
  }

  /** The rule names among `ks` whose value in `rs` is exactly `false`. */
  function FalseAmong(rs: RuleSet, ks: seq<string>): set<string>
  {
    set k | k in ks && Lookup(rs, k) == Some(Bool(false))
  }

  /** The loop of `normalizeRules`: delete `rules[rule]` when it `=== false`, for each visited name. */
  function DeleteFalse(rs: RuleSet, ks: seq<string>): (r: RuleSet)
    ensures forall k :: Lookup(r, k) == if k in ks && Lookup(rs, k) == Some(Bool(false)) then None else Lookup(rs, k)
    decreases |ks|
  {
    if |ks| == 0 then rs
    else DeleteFalse(if Lookup(rs, ks[0]) == Some(Bool(false)) then Delete(rs, ks[0]) else rs, ks[1..])
  }

  lemma {:induction false} DeleteFalseKeys(rs: RuleSet, ks: seq<string>)
    ensures DeleteFalse(rs, ks).keys == Without(rs.keys, FalseAmong(rs, ks))
    decreases |ks|
  {
    if |ks| == 0 {
      assert FalseAmong(rs, ks) == {};
      WithoutNothing(rs.keys);
    } else if Lookup(rs, ks[0]) == Some(Bool(false)) {
      var rs' := Delete(rs, ks[0]);
      DeleteFalseKeys(rs', ks[1..]);
      DeletedStep(rs, ks);
    } else {
      DeleteFalseKeys(rs, ks[1..]);
      KeptStep(rs, ks);
    }
  }

  lemma DeletedStep(rs: RuleSet, ks: seq<string>)
    requires |ks| > 0 && Lookup(rs, ks[0]) == Some(Bool(false))
    requires DeleteFalse(Delete(rs, ks[0]), ks[1..]).keys == Without(Delete(rs, ks[0]).keys, FalseAmong(Delete(rs, ks[0]), ks[1..]))
    ensures DeleteFalse(rs, ks).keys == Without(rs.keys, FalseAmong(rs, ks))
  {
    var k := ks[0];
    var rs' := Delete(rs, k);
    assert DeleteFalse(rs, ks) == DeleteFalse(rs', ks[1..]);
    RemoveKeyIsWithout(rs.keys, k);
    WithoutTwice(rs.keys, {k}, FalseAmong(rs', ks[1..]));
    FalseAmongAfterDelete(rs, ks);
  }

  lemma KeptStep(rs: RuleSet, ks: seq<string>)
    requires |ks| > 0 && Lookup(rs, ks[0]) != Some(Bool(false))
    ensures DeleteFalse(rs, ks) == DeleteFalse(rs, ks[1..])
    ensures FalseAmong(rs, ks) == FalseAmong(rs, ks[1..])
  {
    FalseAmongKept(rs, ks);
  }

  lemma FalseAmongKept(rs: RuleSet, ks: seq<string>)
    requires |ks| > 0 && Lookup(rs, ks[0]) != Some(Bool(false))
    ensures FalseAmong(rs, ks) == FalseAmong(rs, ks[1..])
  {
    forall x
      ensures x in FalseAmong(rs, ks) <==> x in FalseAmong(rs, ks[1..])
    {
      assert x in ks <==> x == ks[0] || x in ks[1..];
    }
  }

  lemma FalseAmongAfterDelete(rs: RuleSet, ks: seq<string>)
    requires |ks| > 0 && Lookup(rs, ks[0]) == Some(Bool(false))
    ensures {ks[0]} + FalseAmong(Delete(rs, ks[0]), ks[1..]) == FalseAmong(rs, ks)
  {
    var k := ks[0];
    var rs' := Delete(rs, k);
    forall x
      ensures x in FalseAmong(rs, ks) <==> x == k || x in FalseAmong(rs', ks[1..])
    {
      if x != k {
        assert Lookup(rs', x) == Lookup(rs, x);
        assert x in ks <==> x in ks[1..];
      }
    }
  }

  lemma {:induction false} WithoutNothing(ks: seq<string>)
    ensures Without(ks, {}) == ks
  {
    if |ks| > 0 {
      WithoutNothing(ks[1..]);
      assert ks == [ks[0]] + ks[1..];
    }
  }

  /** The rule names whose value is exactly `false`. */
  function FalseRules(rs: RuleSet): set<string>
  {
    set k | k in rs.keys && Lookup(rs, k) == Some(Bool(false))
  }

  /**
   * `normalizeRules(rules)`: every rule whose value `=== false` is deleted in
   * place while the rules are enumerated. Exactly those rules go; every other
   * rule keeps its parameter and its place.
   */
  function NormalizeRules(rs: RuleSet): (r: RuleSet)
    ensures forall k :: Lookup(r, k) == if Lookup(rs, k) == Some(Bool(false)) then None else Lookup(rs, k)
    ensures r.keys == Without(rs.keys, FalseRules(rs))
  {
    var ks := Enumerate(rs);
    DeleteFalseKeys(rs, ks);
    assert FalseAmong(rs, ks) == FalseRules(rs);
    DeleteFalse(rs, ks)
  }

  predicate NoFalseRule(rs: RuleSet)
  {
    forall k | k in rs.keys :: Lookup(rs, k) != Some(Bool(false))
  }

  /** Normalising a rule set with no `false` rule gives it back unchanged. */
  lemma {:induction false} DeleteFalseNoop(rs: RuleSet, ks: seq<string>)
    requires NoFalseRule(rs)
    ensures DeleteFalse(rs, ks) == rs
  {
    if |ks| > 0 {
      DeleteFalseNoop(rs, ks[1..]);
    }
  }

  /** Normalising twice is normalising once. */
  lemma NormalizeIdempotent(rs: RuleSet)
    ensures NoFalseRule(NormalizeRules(rs))
    ensures NormalizeRules(NormalizeRules(rs)) == NormalizeRules(rs)
  {
    var r := NormalizeRules(rs);
    DeleteFalseNoop(r, Enumerate(r));
  }

  /** `fieldRules.required === true`. */
  predicate DeclaresRequired(rs: RuleSet)
  {
    Lookup(rs, "required") == Some(Bool(true))
  }

  /** Normalisation never touches `required: true`. */
  lemma NormalizeKeepsRequired(rs: RuleSet)
    ensures DeclaresRequired(NormalizeRules(rs)) == DeclaresRequired(rs)
  {
  }

  /**
   * `optional(field)`: reading the rules of a field that has none throws a
   * TypeError; otherwise the field is optional exactly when it does not
   * declare `required: true` and its value is empty.
   */
  function Optional(rules: RuleTable, f: Field): (r: Result<bool>)
    ensures r.Throw? <==> f.name !in rules
    ensures r.Throw? ==> r.error == TypeError
    ensures f.name in rules ==> r == Ok(!DeclaresRequired(rules[f.name]) && f.value == "")
  {
    if f.name !in rules then Throw(TypeError)
    else Ok(!(DeclaresRequired(rules[f.name]) || JsLength(f.value) > 0))
  }

  /** `a || b` where `a` may throw: `b` is only looked at when `a` returned false. */
  function OrElse(a: Result<bool>, b: bool): (r: Result<bool>)
    ensures r.Ok? <==> a.Ok?
    ensures a.Ok? ==> r.value == (a.value || b)
  {
    match a
    case Throw(e) => Throw(e)
    case Ok(x) => Ok(x || b)
  }

  /** `value.length >= param`: the comparison converts the parameter to a number and NaN compares false. */
  predicate AtLeast(value: string, p: Param)
  {
    match ToNumber(p)
    case Some(n) => JsLength(value) >= n
    case None => false
  }

  /** `value.length <= param`. */
  predicate AtMost(value: string, p: Param)
  {
    match ToNumber(p)
    case Some(n) => JsLength(value) <= n
    case None => false
  }

  /** `min`: an optional field passes, any other needs at least `param` UTF-16 units. */
  function Min(rules: RuleTable, f: Field, p: Param): (r: Result<bool>)
    ensures f.name in rules ==> r.Ok?
    ensures r == Ok(true) <==> f.name in rules && (Optional(rules, f) == Ok(true) || AtLeast(f.value, p))
  {
    OrElse(Optional(rules, f), AtLeast(f.value, p))
  }

  /** `max`: an optional field passes, any other needs at most `param` UTF-16 units. */
  function Max(rules: RuleTable, f: Field, p: Param): (r: Result<bool>)
    ensures f.name in rules ==> r.Ok?
    ensures r == Ok(true) <==> f.name in rules && (Optional(rules, f) == Ok(true) || AtMost(f.value, p))
  {
    OrElse(Optional(rules, f), AtMost(f.value, p))
  }

  /** `email`: an optional field passes, any other needs to contain `\S+@\S+\.\S+`. */
  function Email(rules: RuleTable, f: Field): (r: Result<bool>)
    ensures f.name in rules ==> r.Ok?
    ensures r == Ok(true) <==> f.name in rules && (Optional(rules, f) == Ok(true) || LooksLikeEmail(f.value))
  {
    OrElse(Optional(rules, f), LooksLikeEmail(f.value))
  }

  /**
   * `equalTo`: the parameter is a selector for the other element. A malformed
   * selector throws a SyntaxError, no match or a match without rules throws a
   * TypeError; otherwise the rule passes exactly when the other element is
   * optional or both values are equal and non-empty.
   */
  function EqualTo(env: Env, scope: Scope, rules: RuleTable, f: Field, p: Param): (r: Result<bool>)
    ensures env.select(scope, ToJsString(p)) == InvalidSelector <==> r == Throw(SyntaxError)
    ensures r.Ok? <==> env.select(scope, ToJsString(p)).Match? && env.select(scope, ToJsString(p)).field.name in rules
    ensures r == Ok(true) <==>
      && env.select(scope, ToJsString(p)).Match?
      && var g := env.select(scope, ToJsString(p)).field;
         g.name in rules && (Optional(rules, g) == Ok(true) || (f.value == g.value && f.value != ""))
  {
    match env.select(scope, ToJsString(p))
    case InvalidSelector => Throw(SyntaxError)
    case NoMatch => Throw(TypeError)
    case Match(g) => OrElse(Optional(rules, g), f.value == g.value && JsLength(f.value) > 0)
  }

  /** An optional field passes `min`, `max` and `email` whatever the parameter. */
  lemma OptionalPasses(rules: RuleTable, f: Field, p: Param)
    requires Optional(rules, f) == Ok(true)
    ensures Min(rules, f, p) == Ok(true) && Max(rules, f, p) == Ok(true) && Email(rules, f) == Ok(true)
  {
  }

  /** An empty value cannot equal anything in a way `equalTo` accepts unless the other field is optional. */
  lemma EqualToEmpty(env: Env, scope: Scope, rules: RuleTable, f: Field, p: Param)
    requires f.value == ""
    requires env.select(scope, ToJsString(p)).Match?
    requires Optional(rules, env.select(scope, ToJsString(p)).field) == Ok(false)
    ensures EqualTo(env, scope, rules, f, p) == Ok(false)
  {
  }

  /**
   * Two fields declaring `required: true` and pointing at each other with
   * `equalTo` agree: each passes exactly when the other does.
   */
  lemma EqualToSymmetric(env: Env, scope: Scope, rules: RuleTable, f: Field, g: Field, p: Param, q: Param)
    requires env.select(scope, ToJsString(p)) == Match(g)
    requires env.select(scope, ToJsString(q)) == Match(f)
    requires f.name in rules && g.name in rules
    requires DeclaresRequired(rules[f.name]) && DeclaresRequired(rules[g.name])
    ensures EqualTo(env, scope, rules, f, p) == EqualTo(env, scope, rules, g, q)
  {
  }

  /** `min: n` and `max: n` together admit exactly the non-optional values of length `n`. */
  lemma MinMaxExact(rules: RuleTable, f: Field, n: nat)
    requires Optional(rules, f) == Ok(false)
    ensures Min(rules, f, Num(n)) == Ok(true) && Max(rules, f, Num(n)) == Ok(true) <==> JsLength(f.value) == n
  {
  }

  /** Writing the length bound as a numeral string changes nothing. */
  lemma NumeralBoundsAgree(rules: RuleTable, f: Field, n: nat)
    ensures Min(rules, f, Str(ToJsString(Num(n)))) == Min(rules, f, Num(n))
    ensures Max(rules, f, Str(ToJsString(Num(n)))) == Max(rules, f, Num(n))
  {
    NumeralParamAgreesWithNumber(n);
  }

  /** Two rule tables that `optional` cannot tell apart: same field names, same `required: true`. */
  predicate SameOptionality(a: RuleTable, b: RuleTable)
  {
    && a.Keys == b.Keys
    && (forall n | n in a && n in b :: DeclaresRequired(a[n]) == DeclaresRequired(b[n]))
  }

  /** Normalising one entry of the table leaves `optional` as it was for every field. */
  lemma NormalizeKeepsOptionality(rules: RuleTable, name: string)
    requires name in rules
    ensures SameOptionality(rules, rules[name := NormalizeRules(rules[name])])
  {
    NormalizeKeepsRequired(rules[name]);
  }
}
